=== FILE: README.md ===
# Infoland news reader — a Dafny model of its logic

Infoland is a React Native reader for a WordPress news site. This project models the logic of its
screens and hooks as pure functions over immutable records. Every network response, store read or
write outcome, clock difference and library call (`encodeURIComponent`, `JSON.parse`/`stringify`)
is a parameter.

| file | module | what it models |
|---|---|---|
| `optional.dfy` | `Optional` | `null`/`undefined` next to a value |
| `js_text.dfy` | `JsText` | ECMAScript `trim` and its white-space set, `String(n)` for integers, `parseInt(s, 10)`, `join(',')` and `split(',')` |
| `query.dfy` | `Query` | a request as a base path plus ordered query parameters, read through `Lookup` |
| `fetching.dfy` | `Fetching` | a fetch outcome: OK response (header and body), non-OK status, or thrown failure |
| `posts.dfy` | `Posts` | the post record, featured-image fallback, category label from embedded terms |
| `html.dfy` | `Html` | `stripHtml`: global removal of `<[^>]*>` then trim |
| `time_ago.dfy` | `TimeAgo` | `getTimeAgo` bucketing and pluralisation |
| `post_card.dfy` | `PostCard` | the fields a list card displays |
| `feed.dfy` | `Feed` | the paginated, category-filtered home list: state, fetch start, completion, category change, `loadMore`, view |
| `post_detail.dfy` | `PostDetail` | the detail screen: guarded post fetch, error text, related-posts request, best-effort related load, share URLs |
| `category_dropdown.dfy` | `CategoryDropdown` | multi-select toggle and the dropdown's label |
| `preferences.dfy` | `Preferences` | theme, notification level, notifications flag, home category, notification categories: load, save, effective theme |

Each asynchronous completion is one atomic transition applied to the state current at that moment,
for example `Feed.Complete(state, fetch, response)`. A save is modelled as `setItem` followed by the
state update, and the update happens only when the write outcome is success (`Preferences.Persist`).

`getTimeAgo` and `stripHtml` are defined twice in the source, once in `components/post-card.tsx` and
once in `app/post-detail.tsx`, with identical text. The model defines each once (`TimeAgo.TimeAgoText`,
`Html.StripHtml`), and both screens use that one definition, so the two copies agree on every input
by construction.

In these places the model follows what the code does:
- Changing category resets `page` and `hasMore` and starts a replacing fetch. It does not empty
  the list: the old posts stay until the response arrives (`Feed.SelectCategory`).
- `loadMore` checks only `loadingMore` and `hasMore`. It starts a fetch even while the first page
  is still loading (`Feed.LoadMoreDuringInitialLoad`).
- A non-OK status in the list sets no error. Only a thrown failure does, and the error view appears
  only when the list is empty (`Feed.Complete`, `Feed.View`).
- A failed related fetch leaves the related list as it was. It is not reset to empty
  (`PostDetail.RelatedArrived`).
- The stored notification categories are adopted after an `Array.isArray` check alone, so an array
  of anything becomes the list (`Preferences.UnvalidatedCategoriesAreAdopted`).
- The stored theme is adopted without checking that it is one of the three names, so it can reach
  the effective theme unchanged (`Preferences.UnvalidatedThemeReachesEffectiveTheme`).

## Model

| member | source | states |
|---|---|---|
| `JsText.Trim` | app/post-detail.tsx:134-136 | `trim` leaves no ECMAScript white space at either end and never lengthens the text |
| `JsText.TrimStartDropsWhiteSpace` | app/post-detail.tsx:135 | what `trim` removes at the start is white space only |
| `JsText.TrimEndDropsWhiteSpace` | app/post-detail.tsx:135 | what `trim` removes at the end is white space only |
| `JsText.TrimCharacterised` | app/post-detail.tsx:135 | whenever text splits as white space, a middle part with no white space at its ends, and white space, `trim` returns exactly that middle part |
| `JsText.TrimIdempotent` | app/post-detail.tsx:135 | trimming twice equals trimming once |
| `JsText.NatToString` | components/posts-list.tsx:46 | a page or id number is printed as a non-empty decimal numeral without leading zeros |
| `JsText.ParseInt` | components/posts-list.tsx:74 | `parseInt(h, 10)` is NaN exactly when no decimal digit follows the leading white space and optional sign |
| `JsText.ParseIntOfNatToString` | components/posts-list.tsx:72-77 | a total-pages header that prints a number parses back to that number |
| `JsText.ParseSignedNumeral` | components/posts-list.tsx:74 | after white space, a digit run followed by a non-digit reads as its value, and as its negation after a '-' |
| `JsText.ParseIntOfIntNumeralThen` | app/post-detail.tsx:123-131 | a printed integer, negative ones included, followed by non-digit text parses back to the integer |
| `JsText.ParseIntOfNumeralThen` | components/posts-list.tsx:74 | a numeral followed by non-digit text still parses to the numeral's value |
| `JsText.JoinNats` | app/post-detail.tsx:86 | joining category ids gives the empty string exactly for no ids |
| `JsText.JoinNatsRoundTrip` | app/post-detail.tsx:86 | splitting the joined ids at commas and parsing each piece gives back the ids in order |
| `Posts.FeaturedImageIsFirstTruthy` | components/post-card.tsx:35-38 | the image is the first non-empty of the Open Graph URL and the featured-media URL; missing objects and empty strings fall through; nothing gives no image |
| `Posts.CategoryNameAfter` | app/post-detail.tsx:61-65 | the category label becomes the first term's name when the first embedded term list is non-empty, and otherwise keeps its previous value |
| `Html.RemoveTags` | app/post-detail.tsx:135 | after the global `<[^>]*>` removal, no '<' is followed by a '>'; the output is no longer and uses only input characters |
| `Html.StripHtml` | app/post-detail.tsx:134-136 | stripped text has no tag left and no white space at either end |
| `Html.RemoveTagsOfTagFree` | app/post-detail.tsx:135 | text with no '<' before a '>' passes through tag removal unchanged |
| `Html.StripHtmlIdempotent` | app/post-detail.tsx:134-136 | stripping twice equals stripping once |
| `Html.StripHtmlWithoutAngle` | components/post-card.tsx:57-60 | on text containing no '<', stripping is plain trim |
| `Html.RemoveTagsDeletesTag` | app/post-detail.tsx:135 | a tag `<t>` is deleted whole, the '<'-free text before it is kept, and removal continues after its '>' |
| `TimeAgo.Bucket` | components/post-card.tsx:44-54 | under one hour is minutes, from one hour up to 24 hours is hours, and from 24 hours on is days |
| `TimeAgo.BucketCount` | components/post-card.tsx:44-54 | the count is the number of whole elapsed units: under 60 minutes, 1 to 23 hours, at least one day |
| `TimeAgo.Label` | components/post-card.tsx:47-53 | the label is the count, a space, the unit word ("min", "hr" or "day"), then "s ago" exactly when the count is not 1 and " ago" otherwise |
| `TimeAgo.TimeAgoText` | app/post-detail.tsx:118-132 | an unparsable date (NaN difference) prints "NaN days ago"; for a numeric difference the label is the bucket's count followed by its unit word ("min", "hr" or "day"), parses back to that count, and ends in "s ago" exactly when the count is not 1 |
| `TimeAgo.LabelCountRoundTrip` | app/post-detail.tsx:123-131 | `parseInt` of the label gives back the count, negative counts included |
| `TimeAgo.ZeroMinutesExample` | components/post-card.tsx:46-48 | any difference under one minute prints "0 mins ago" |
| `TimeAgo.OneMinuteExample` | components/post-card.tsx:46-48 | any difference from one minute up to two prints "1 min ago" |
| `TimeAgo.OneHourExample` | components/post-card.tsx:49-51 | any difference from one hour up to two prints "1 hr ago" |
| `TimeAgo.OneDayExample` | components/post-card.tsx:51-54 | any difference from one day up to two prints "1 day ago" |
| `PostCard.CardView` | components/post-card.tsx:34-63 | the image is the first non-empty of the Open Graph URL and the featured-media URL (the Open Graph one wins when both are set), and there is none exactly when neither is set; title and excerpt are the stripped HTML, so tag-free and trimmed, and plain trim on text without '<'; the age label is `getTimeAgo` of the difference and parses to the bucket count |
| `Feed.CategoryId` | components/posts-list.tsx:15-21 | only "Top News" maps to no WordPress category; the others map to Politics 6, Sports 5, Music 7, Comedy 8 |
| `Feed.CategoryIdInjective` | components/posts-list.tsx:15-21 | no two tabs share a WordPress category |
| `Feed.PageRequest` | components/posts-list.tsx:46-51 | every page request has `per_page=10` and `page=<n>`; it has `categories=<id>` exactly when a category other than "Top News" is given |
| `Feed.PageRequestUrl` | components/posts-list.tsx:46-51 | the fetched URL is the API base, `?per_page=10&page=<n>`, then `&categories=<id>` exactly when the category has an id |
| `Feed.HasMoreWithHeader` | components/posts-list.tsx:72-77 | with a numeric total-pages header T, more pages remain exactly when the page number is below T and the page is non-empty |
| `Feed.HasMoreWithoutHeader` | components/posts-list.tsx:72-77 | with no header or an empty one, more pages remain exactly when the page held at least 10 posts |
| `Feed.EmptyPageEndsList` | components/posts-list.tsx:77 | an empty page always ends the list |
| `Feed.NonNumericHeaderEndsList` | components/posts-list.tsx:73-77 | a header that parses to NaN ends the list |
| `Feed.Initial` | components/posts-list.tsx:30-35 | on mount the list is empty, page 1, `hasMore` and `loading` raised, no error |
| `Feed.StartFetch` | components/posts-list.tsx:37-51 | a fetch raises the flag of its mode, clears the error, and requests its page for the current category; posts and page are untouched |
| `Feed.Complete` | components/posts-list.tsx:62-91 | OK: page appended or list replaced, `hasMore` recomputed; non-OK: nothing changes but the flags; thrown: error message recorded, list and `hasMore` kept; both loading flags end false |
| `Feed.SelectCategory` | components/posts-list.tsx:94-98 | a category change sets page 1 and `hasMore`, keeps the old posts and the `loadingMore` flag, and starts a replacing fetch of page 1 filtered on the new category |
| `Feed.LoadMore` | components/posts-list.tsx:100-106 | ignored while a next page loads or once exhausted; otherwise the page goes up by one and an appending fetch of that page, in the current category, starts while the category and `loading` stay as they were |
| `Feed.View` | components/posts-list.tsx:108-123 | spinner exactly while loading; error view exactly when not loading, the error is non-empty and the list is empty |
| `Feed.TransitionsKeepValid` | components/posts-list.tsx:94-106 | page numbers stay at least 1 through every transition |
| `Feed.LoadMoreFailureKeepsPage` | components/posts-list.tsx:84-91 | a failed next page keeps the list and `hasMore` and does not roll the page number back |
| `Feed.LoadMoreDuringInitialLoad` | components/posts-list.tsx:100-106 | `loadMore` right after a category change starts page 2 while page 1 is still loading |
| `Feed.FailureWithPostsKeepsList` | components/posts-list.tsx:84-87 | a thrown failure with posts on screen still shows the list |
| `Feed.FailureWithoutPostsShowsError` | components/posts-list.tsx:117-123 | a thrown failure with a message and an empty list shows the error view |
| `Feed.NextPage` | components/posts-list.tsx:79-81 | a successful next page is appended: the earlier list is a prefix, the page advances by one |
| `Feed.FirstPage` | components/posts-list.tsx:78-83 | from any state, the first page after a category change replaces whatever was listed with the response |
| `Feed.ScrollKeepsPrefix` | components/posts-list.tsx:37-106 | over any run of next-page responses (OK with or without a total-pages header, non-OK, or thrown), the listed posts stay a prefix and the page advances at most once per response |
| `Feed.ShortPageStopsScrolling` | components/posts-list.tsx:75-77 | without a header, a page shorter than 10 ends the list and later `loadMore` calls are ignored |
| `Feed.SportsWalkThrough` | components/posts-list.tsx:46-106 | Sports filters on id 5; with a total-pages header of 3 and pages of 10, 10 and 4 posts the list grows 10, 20, 24 and ends after page 3 |
| `PostDetail.Initial` | app/post-detail.tsx:25-30 | on mount: no post, loading, no error, no related posts, related spinner off, no category label |
| `PostDetail.FetchPost` | app/post-detail.tsx:33-44 | a missing or empty post id sets "Post ID is required", ends loading and requests nothing; otherwise the post is requested with `_embed=true` |
| `PostDetail.PostRequestUrl` | app/post-detail.tsx:44 | the post's URL is the API base, `/<postId>`, then `?_embed=true` |
| `PostDetail.SameCategoriesParams` | app/post-detail.tsx:84-86 | related posts of a categorised post filter on its joined ids, exclude it, ask for 3, impose no ordering |
| `PostDetail.RecentParams` | app/post-detail.tsx:95-97 | related posts of an uncategorised post have no category filter, exclude it, ask for 3, order by date descending |
| `PostDetail.RelatedRequest` | app/post-detail.tsx:82-97 | the related request always excludes the post and asks for 3; it filters by category exactly when the post has category ids |
| `PostDetail.SameCategoriesUrl` | app/post-detail.tsx:86 | the same-category URL is `?categories=<ids>&exclude=<id>&per_page=3&_embed=true` |
| `PostDetail.RecentUrl` | app/post-detail.tsx:97 | the most-recent URL is `?exclude=<id>&per_page=3&_embed=true&orderby=date&order=desc` |
| `PostDetail.RelatedRequestUrl` | app/post-detail.tsx:82-97 | the related fetch uses the same-category URL when the post has category ids and the most-recent URL otherwise |
| `PostDetail.RelatedCategoriesRoundTrip` | app/post-detail.tsx:86 | the category filter of the related request reads back as the post's ids |
| `PostDetail.PostArrived` | app/post-detail.tsx:47-75 | OK: post stored, header title stripped, category label updated, related fetch started; non-OK: "Failed to fetch post: <status> <statusText>"; thrown: its message; on both failures nothing but the error and loading changes and no header title is set; loading ends |
| `PostDetail.RelatedArrived` | app/post-detail.tsx:89-111 | only an OK response replaces the related list; failures leave it; post, error and loading untouched; `loadingRelated` ends false |
| `PostDetail.RelatedFailureIsHarmless` | app/post-detail.tsx:100-111 | a loaded post stays displayed without error when its related fetch fails |
| `PostDetail.FirstVisit` | app/post-detail.tsx:25-110 | from mount, a found post and its related posts leave the post shown without error, the related list filled and both spinners off |
| `PostDetail.LoadingEnds` | app/post-detail.tsx:34-75 | every path of the detail load ends with loading false |
| `PostDetail.ShareRequest` | app/post-detail.tsx:138-157 | nothing without a post; Twitter carries the encoded link and stripped title, Facebook and LinkedIn only the encoded link |
| `PostDetail.ShareParams` | app/post-detail.tsx:146-157 | the share query carries the link under `url` (`u` for Facebook), and a `text` title for Twitter only |
| `Fetching.ThrownMessage` | app/post-detail.tsx:70 | a thrown `Error` shows its message; any other thrown value shows "An error occurred" |
| `Posts.CategoryIds` | app/post-detail.tsx:82 | a post's category ids, or none when the field is absent |
| `PostDetail.ShareUrl` | app/post-detail.tsx:146-157 | the opened URL is the platform's base followed by `?url=<link>&text=<title>` for Twitter, `?u=<link>` for Facebook and `?url=<link>` for LinkedIn, with the three bases spelled out as in the source |
| `PostDetail.ArticleView` | app/post-detail.tsx:164-252 | the article shows exactly when loaded without error; its image is the first non-empty source, its category label is shown only when non-empty, its title and body are the stripped HTML of the post's title and content, and its age label is `getTimeAgo` of the difference |
| `PostDetail.ArticleMatchesCard` | app/post-detail.tsx:189-197 | the detail screen and the list card of the same post show the same image, title and age label |
| `CategoryDropdown.Without` | components/category-dropdown.tsx:22 | filtering removes every occurrence of the category and keeps every other element |
| `CategoryDropdown.Toggle` | components/category-dropdown.tsx:20-26 | toggling flips the category's membership, keeps every other member and their relative order, and appends an absent category at the end |
| `CategoryDropdown.ToggleTwiceAbsent` | components/category-dropdown.tsx:21-25 | toggling an unselected category twice gives back the original selection |
| `CategoryDropdown.ToggleKeepsNoDuplicates` | components/category-dropdown.tsx:21-25 | a selection without repeats keeps having none |
| `CategoryDropdown.ToggleTwicePresent` | components/category-dropdown.tsx:21-25 | toggling a selected category twice moves it to the end |
| `CategoryDropdown.DisplayText` | components/category-dropdown.tsx:28-39 | no selection shows "Select categories..."; as many as the options "All categories"; a single one its name; otherwise "<n> categories selected", whose number parses back to n |
| `CategoryDropdown.AllCategoriesMeansAllSelected` | components/category-dropdown.tsx:32-34 | for a repeat-free selection drawn from repeat-free options, "All categories" shows exactly when every option is selected |
| `CategoryDropdown.AllCategoriesByCount` | components/category-dropdown.tsx:32-34 | the label compares counts: a repeated entry can claim "All categories" |
| `Preferences.Persist` | hooks/use-theme-preference.tsx:117-124 | on a successful write the state becomes the new one and only the key changes in the store; a failed write changes neither |
| `Preferences.EffectiveTheme` | hooks/use-theme-preference.tsx:63-68 | "system" gives dark exactly when the OS scheme is "dark" and light otherwise (including null); any other preference gives itself |
| `Preferences.EffectiveThemeIsLightOrDark` | hooks/use-theme-preference.tsx:63-68 | for the three theme names the effective theme is light or dark |
| `Preferences.LoadTheme` | hooks/use-theme-preference.tsx:34-45 | any non-empty stored theme is adopted; empty, absent or failed reads keep it; loading ends in every case |
| `Preferences.UnvalidatedThemeReachesEffectiveTheme` | hooks/use-theme-preference.tsx:36-39 | a stored "blue" becomes the effective theme, outside light/dark |
| `Preferences.SystemBackground` | hooks/use-theme-preference.tsx:52-57 | light sets "#FFFFFF", dark "#000000", system makes no call |
| `Preferences.SaveTheme` | hooks/use-theme-preference.tsx:47-61 | the theme is stored, then adopted, then the background is set; on success only the preference changes (`isLoading` is kept); a failed write changes nothing and makes no call |
| `Preferences.ThemeRoundTrip` | hooks/use-theme-preference.tsx:36-50 | a saved theme is what the next load adopts |
| `Preferences.ParseNotificationPreference` | hooks/use-theme-preference.tsx:107 | only "all", "breaking" and "none" name a notification level |
| `Preferences.LoadNotifications` | hooks/use-theme-preference.tsx:104-115 | a stored valid level is adopted; anything else keeps the current level; loading ends |
| `Preferences.SaveNotifications` | hooks/use-theme-preference.tsx:117-124 | the level is adopted only after its write succeeds, and nothing else in the state changes |
| `Preferences.NotificationsRoundTrip` | hooks/use-theme-preference.tsx:106-120 | a saved level is what the next load adopts |
| `Preferences.LoadEnabled` | hooks/use-theme-preference.tsx:218-229 | any stored string sets the flag to whether it is "true"; nothing stored keeps it; loading ends |
| `Preferences.SaveEnabled` | hooks/use-theme-preference.tsx:231-238 | the flag is written as "true"/"false" and adopted only after the write succeeds, and nothing else in the state changes |
| `Preferences.EnabledRoundTrip` | hooks/use-theme-preference.tsx:211-234 | load after save gives the saved flag from any state; with nothing stored it is off |
| `Preferences.LoadCategory` | hooks/use-theme-preference.tsx:141-152 | any non-empty stored category is adopted; otherwise it is kept; loading ends |
| `Preferences.SaveCategory` | hooks/use-theme-preference.tsx:154-161 | the category is adopted only after its write succeeds, and nothing else in the state changes |
| `Preferences.CategoryRoundTrip` | hooks/use-theme-preference.tsx:134-157 | a saved category loads back, except the empty one, which loads as "Top News" |
| `Preferences.LoadCategories` | hooks/use-theme-preference.tsx:178-192 | stored text that parses to an array replaces the categories with its elements, whatever they are; non-arrays and parse errors are ignored; loading ends |
| `Preferences.UnvalidatedCategoriesAreAdopted` | hooks/use-theme-preference.tsx:182-184 | a stored `[1, {}]` is adopted as the category list |
| `Preferences.CategoriesJson` | hooks/use-theme-preference.tsx:194-196 | categories are written as a JSON array of their names, in order |
| `Preferences.SaveCategories` | hooks/use-theme-preference.tsx:194-201 | the list is written as JSON and adopted only after the write succeeds, and nothing else in the state changes |
| `Preferences.CategoriesRoundTrip` | hooks/use-theme-preference.tsx:180-197 | with a JSON codec that reads back what it writes, the saved categories load back as their names, in order |

## Left out

- HTTP (`fetch`, `response.json`, header access): a response is an input value (`Fetching.Response`). A body that fails to parse counts as a thrown failure. A well-formed body is assumed, as the code assumes it.
- Overlapping fetches: two requests in flight, a stale response after a category switch, and React's batching of state updates are concurrency. Each completion is applied as one step to the then-current state.
- AsyncStorage, `SystemUI.setBackgroundColorAsync`, `Linking.openURL`, `navigation.setOptions`, `router.push` and console logging are foreign I/O. The model returns what would be written, set or opened: the new store map, the background colour, the share request and the header title.
- `new Date()`, date parsing and the clock: `getTimeAgo` takes the millisecond difference, or `None` for an unparsable date.
- JSON numbers are modelled as integers (`Preferences.JsonValue`); floating point is out of scope.
- `encodeURIComponent`, `JSON.stringify` and `JSON.parse` are opaque library functions, passed in as function parameters.
- JsText.ParseInt: uses exact integers. JavaScript numbers lose precision above 2^53, which no realistic page count reaches.
- JsText.NatToString: prints exact decimals. JavaScript switches to exponent notation at 10^21, beyond any page number or post id.
- Rendering, styling, skeleton animations, static legal text, navigation layout and the colour and font tables have no logic to model.
- The reading of `yoast_head_json`, `_embedded` and `categories` through optional chaining: each chain is flattened to an `Option` field of `Posts.Post`.

=== FILE: category_dropdown.dfy ===
/**
 * The multi-select dropdown of notification categories: toggling one entry
 * of the selection, and the text shown on the closed dropdown.
 */
module CategoryDropdown {
  import opened Optional
  import opened JsText

  /** `s.filter(x => x !== c)`. */
  function Without<T(==)>(s: seq<T>, c: T): (r: seq<T>)
    ensures c !in r
    ensures forall x :: x in r ==> x in s
    ensures forall x :: x in s && x != c ==> x in r
    ensures |r| <= |s|
  {
    if s == [] then []
    else if s[0] == c then Without(s[1..], c)
    else [s[0]] + Without(s[1..], c)
  }

  lemma {:induction false} WithoutConcat<T>(s: seq<T>, t: seq<T>, c: T)
    ensures Without(s + t, c) == Without(s, c) + Without(t, c)
  {
    if s == [] {
      assert s + t == t;
    } else {
      assert (s + t)[0] == s[0];
      assert (s + t)[1..] == s[1..] + t;
      WithoutConcat(s[1..], t, c);
      if s[0] != c {
        assert Without(s + t, c) == [s[0]] + (Without(s[1..], c) + Without(t, c));
      }
    }
  }

  lemma {:induction false} WithoutAbsent<T>(s: seq<T>, c: T)
    requires c !in s
    ensures Without(s, c) == s
  {
    if s != [] {
      WithoutAbsent(s[1..], c);
    }
  }

  /** Pressing an entry: remove it (every occurrence) if selected, otherwise add it at the end. */
  function Toggle<T(==)>(selected: seq<T>, c: T): (r: seq<T>)
    ensures c in r <==> c !in selected
    ensures forall x :: x in r && x != c ==> x in selected
    ensures forall x :: x in selected && x != c ==> x in r
    ensures Without(r, c) == Without(selected, c)
    ensures c !in selected ==> r == selected + [c]
  {
    if c in selected then
      WithoutAbsent(Without(selected, c), c);
      Without(selected, c)
    else
      WithoutConcat(selected, [c], c);
      WithoutAbsent(selected, c);
      selected + [c]
  }

  /** Toggling an entry that was not selected twice gives back the selection. */
  lemma ToggleTwiceAbsent<T>(selected: seq<T>, c: T)
    requires c !in selected
    ensures Toggle(Toggle(selected, c), c) == selected
  {
    WithoutConcat(selected, [c], c);
    WithoutAbsent(selected, c);
  }

  predicate NoDuplicates<T(==)>(s: seq<T>) {
    forall i, j :: 0 <= i < j < |s| ==> s[i] != s[j]
  }

  lemma {:induction false} WithoutNoDuplicates<T>(s: seq<T>, c: T)
    requires NoDuplicates(s)
    ensures NoDuplicates(Without(s, c))
  {
    if s != [] {
      assert NoDuplicates(s[1..]) by {
        forall i, j | 0 <= i < j < |s[1..]| ensures s[1..][i] != s[1..][j] {
          assert s[1..][i] == s[i + 1] && s[1..][j] == s[j + 1];
        }
      }
      WithoutNoDuplicates(s[1..], c);
      if s[0] != c {
        var r := Without(s[1..], c);
        assert s[0] !in s[1..] by {
          forall k | 0 <= k < |s[1..]| ensures s[1..][k] != s[0] { assert s[1..][k] == s[k + 1]; }
        }
        assert s[0] !in r;
        forall i, j | 0 <= i < j < |[s[0]] + r| ensures ([s[0]] + r)[i] != ([s[0]] + r)[j] {
          if i == 0 { assert ([s[0]] + r)[j] == r[j - 1]; assert r[j - 1] in r; }
          else { assert ([s[0]] + r)[i] == r[i - 1] && ([s[0]] + r)[j] == r[j - 1]; }
        }
      }
    }
  }

  /** A selection without repeats keeps having none. */
  lemma ToggleKeepsNoDuplicates<T>(selected: seq<T>, c: T)
    requires NoDuplicates(selected)
    ensures NoDuplicates(Toggle(selected, c))
  {
    if c in selected {
      WithoutNoDuplicates(selected, c);
    } else {
      var r := selected + [c];
      forall i, j | 0 <= i < j < |r| ensures r[i] != r[j] {
        if j == |selected| { assert r[i] == selected[i]; assert selected[i] in selected; }
        else { assert r[i] == selected[i] && r[j] == selected[j]; }
      }
    }
  }

  /** Toggling a selected entry twice moves it to the end of a selection without repeats. */
  lemma ToggleTwicePresent<T>(selected: seq<T>, c: T)
    requires c in selected
    ensures Toggle(Toggle(selected, c), c) == Without(selected, c) + [c]
  {
  }

  /** The text of the closed dropdown. */
  function DisplayText(selected: seq<string>, options: seq<string>): (r: string)
    ensures selected == [] ==> r == "Select categories..."
    ensures selected != [] && |selected| == |options| ==> r == "All categories"
    ensures |selected| == 1 && |options| != 1 ==> r == selected[0]
    ensures |selected| > 1 && |selected| != |options| ==>
              ParseInt(r) == Some(|selected|) && r == NatToString(|selected|) + " categories selected"
  {
    if |selected| == 0 then "Select categories..."
    else if |selected| == |options| then "All categories"
    else if |selected| == 1 then selected[0]
    else
      ParseIntOfNumeralThen(|selected|, " categories selected");
      NatToString(|selected|) + " categories selected"
  }

  // ---------------------------------------------------------------- counting

  function Elements<T>(s: seq<T>): set<T> {
    set x | x in s
  }

  lemma {:induction false} NoDuplicatesCount<T>(s: seq<T>)
    requires NoDuplicates(s)
    ensures |Elements(s)| == |s|
  {
    if s != [] {
      var p := s[..|s| - 1];
      assert NoDuplicates(p) by {
        forall i, j | 0 <= i < j < |p| ensures p[i] != p[j] { assert p[i] == s[i] && p[j] == s[j]; }
      }
      NoDuplicatesCount(p);
      assert s == p + [s[|s| - 1]];
      assert s[|s| - 1] !in Elements(p) by {
        forall k | 0 <= k < |p| ensures p[k] != s[|s| - 1] { assert p[k] == s[k]; }
      }
      assert Elements(s) == Elements(p) + {s[|s| - 1]};
    }
  }

  lemma SubsetCardinality<T>(a: set<T>, b: set<T>)
    requires a <= b
    ensures |a| <= |b|
  {
    assert b == a + (b - a);
  }

  /**
   * The label compares counts, but for a selection taken from the options
   * without repeats (what toggling produces), "All categories" is shown
   * exactly when every option is selected.
   */
  lemma AllCategoriesMeansAllSelected(selected: seq<string>, options: seq<string>)
    requires selected != []
    requires NoDuplicates(selected) && NoDuplicates(options)
    requires forall x :: x in selected ==> x in options
    requires "All categories" !in options
    ensures DisplayText(selected, options) == "All categories" <==>
              forall o :: o in options ==> o in selected
  {
    NoDuplicatesCount(selected);
    NoDuplicatesCount(options);
    var a, b := Elements(selected), Elements(options);
    assert a <= b;
    if forall o :: o in options ==> o in selected {
      assert b <= a;
      assert a == b;
    } else {
      var o :| o in options && o !in selected;
      assert a <= b - {o};
      SubsetCardinality(a, b - {o});
      assert |selected| < |options|;
      var r := DisplayText(selected, options);
      if |selected| > 1 {
        assert r[0] == NatToString(|selected|)[0];
      } else {
        assert selected[0] in options;
      }
    }
  }

  /** A repeated entry is enough to claim "All categories": the label counts, it does not compare sets. */
  lemma AllCategoriesByCount()
    ensures DisplayText(["Politics", "Politics"], ["Politics", "Music"]) == "All categories"
  {
  }
}

=== FILE: feed.dfy ===
/**
 * The paginated, category-filtered post list of the home screen.
 *
 * The component's state `{posts, page, hasMore, loading, loadingMore, error}`
 * is a record, and each event is a pure transition: starting a page fetch,
 * the arrival of its outcome, a change of category, and `loadMore`. Every
 * completion is applied atomically to the state current at that moment.
 */
module Feed {
  import opened Optional
  import opened JsText
  import opened Query
  import opened Posts
  import opened Fetching

  const ApiUrl: string := "https://infoland.ng/wp-json/wp/v2/posts"

  /** Posts requested per page (`per_page=10`). */
  const PageSize: nat := 10

  /** The closed set of tabs of the home screen. */
  datatype Category = TopNews | Politics | Sports | Music | Comedy

  /** The WordPress category id of a tab; "Top News" applies no filter. */
  function CategoryId(c: Category): (r: Option<nat>)
    ensures r.None? <==> c == TopNews
    ensures c == Politics ==> r == Some(6)
    ensures c == Sports ==> r == Some(5)
    ensures c == Music ==> r == Some(7)
    ensures c == Comedy ==> r == Some(8)
  {
    match c
    case TopNews => None
    case Politics => Some(6)
    case Sports => Some(5)
    case Music => Some(7)
    case Comedy => Some(8)
  }

  /** Distinct tabs filter on distinct WordPress categories. */
  lemma CategoryIdInjective(a: Category, b: Category)
    requires CategoryId(a) == CategoryId(b)
    ensures a == b
  {
  }

  /** The id filter in force for an optional category. */
  function Filter(category: Option<Category>): Option<nat> {
    if category.Some? then CategoryId(category.value) else None
  }

  /** The request for one page of the list. */
  function PageRequest(category: Option<Category>, pageNum: nat): (q: Request)
    ensures q.base == ApiUrl
    ensures Lookup(q.params, "per_page") == Some(NatToString(PageSize))
    ensures Lookup(q.params, "page") == Some(NatToString(pageNum))
    ensures Lookup(q.params, "categories").Some? <==>
              category.Some? && category.value != TopNews
    ensures forall id :: Filter(category) == Some(id) ==>
              Lookup(q.params, "categories") == Some(NatToString(id))
  {
    var page := NatToString(pageNum);
    assert NatToString(PageSize) == "10";
    match Filter(category)
    case None => Request(ApiUrl, [("per_page", "10"), ("page", page)])
    case Some(id) =>
      var ps := [("per_page", "10"), ("page", page), ("categories", NatToString(id))];
      assert ps[1..][1..] == [("categories", NatToString(id))];
      assert ps[0].0 != "categories" && ps[1].0 != "categories";
      assert Lookup(ps[1..][1..], "categories") == Some(NatToString(id));
      assert Lookup(ps[1..], "categories") == Some(NatToString(id));
      Request(ApiUrl, ps)
  }

  /**
   * The URL fetched for a page: `?per_page=10&page=<n>`, followed by
   * `&categories=<id>` when a category other than Top News is chosen.
   */
  lemma PageRequestUrl(category: Option<Category>, pageNum: nat)
    ensures var url := PageRequest(category, pageNum).Url();
            var first := ApiUrl + "?" + "per_page" + "=" + "10" + "&" + "page" + "=" + NatToString(pageNum);
            && (Filter(category).None? ==> url == first)
            && (Filter(category).Some? ==> url == first + "&" + "categories" + "=" + NatToString(Filter(category).value))
  {
    var page := NatToString(pageNum);
    UrlOfTwo(ApiUrl, "per_page", "10", "page", page);
    if Filter(category).Some? {
      var ps := [("per_page", "10"), ("page", page)];
      var cat := NatToString(Filter(category).value);
      assert ps + [("categories", cat)] == [("per_page", "10"), ("page", page), ("categories", cat)];
      UrlSnoc(ApiUrl, ps, "categories", cat);
    }
  }

  /**
   * The page count the fetch believes in: the parsed `X-WP-TotalPages`
   * header when it is a non-empty string (`None` is NaN), otherwise a guess
   * from the page length (a short page is the last one).
   */
  function TotalPages(pageNum: nat, header: Option<string>, count: nat): Option<int> {
    if header.Some? && header.value != "" then ParseInt(header.value)
    else Some(if count < PageSize then pageNum else pageNum + 1)
  }

  /** `pageNum < totalPages && data.length > 0`; a comparison with NaN is false. */
  function HasMore(pageNum: nat, header: Option<string>, count: nat): bool {
    var total := TotalPages(pageNum, header, count);
    total.Some? && pageNum < total.value && count > 0
  }

  /** With a numeric header T, more pages remain iff this page is before T and not empty. */
  lemma HasMoreWithHeader(pageNum: nat, t: nat, count: nat)
    ensures HasMore(pageNum, Some(NatToString(t)), count) <==> pageNum < t && count > 0
  {
    ParseIntOfNatToString(t);
  }

  /** Without a header (or with an empty one), more pages remain iff the page was full. */
  lemma HasMoreWithoutHeader(pageNum: nat, header: Option<string>, count: nat)
    requires header.None? || header.value == ""
    ensures HasMore(pageNum, header, count) <==> count >= PageSize
  {
  }

  /** An empty page always ends the list, whatever the header says. */
  lemma EmptyPageEndsList(pageNum: nat, header: Option<string>)
    ensures !HasMore(pageNum, header, 0)
  {
  }

  /** A header that does not start with a number parses to NaN and ends the list. */
  lemma NonNumericHeaderEndsList(pageNum: nat, h: string, count: nat)
    requires h != "" && ParseInt(h).None?
    ensures !HasMore(pageNum, Some(h), count)
  {
  }

  // ---------------------------------------------------------------- state

  datatype FeedState = FeedState(
    category: Option<Category>,
    posts: seq<Post>,
    page: nat,
    hasMore: bool,
    loading: bool,
    loadingMore: bool,
    error: Option<string>)

  /** The pages are numbered from 1. */
  predicate Valid(s: FeedState) {
    s.page >= 1
  }

  /** The state on mount, before the category effect runs. */
  function Initial(category: Option<Category>): (s: FeedState)
    ensures Valid(s) && s.posts == [] && s.loading && !s.loadingMore && s.hasMore && s.error.None?
  {
    FeedState(category, [], 1, true, true, false, None)
  }

  /** A fetch in flight: which page, whether it appends, and its request. */
  datatype PageFetch = PageFetch(pageNum: nat, append: bool, request: Request)

  /** The synchronous part of `fetchPosts(pageNum, append)`: raise a loading flag, clear the error, build the request. */
  function StartFetch(s: FeedState, pageNum: nat, append: bool): (r: (FeedState, PageFetch))
    ensures var (t, f) := r;
            && t.posts == s.posts && t.page == s.page && t.hasMore == s.hasMore
            && t.category == s.category && t.error.None?
            && (if append then t.loadingMore && t.loading == s.loading
                else t.loading && t.loadingMore == s.loadingMore)
            && f.pageNum == pageNum && f.append == append
            && f.request == PageRequest(s.category, pageNum)
  {
    var t := if append then s.(loadingMore := true) else s.(loading := true);
    (t.(error := None), PageFetch(pageNum, append, PageRequest(s.category, pageNum)))
  }

  /**
   * The arrival of a fetch's outcome. An OK response stores the page
   * (appended or replacing) and recomputes `hasMore`; a non-OK response
   * changes nothing but the loading flags; a thrown failure records its
   * message. Both loading flags end false in every case (`finally`).
   */
  function Complete(s: FeedState, f: PageFetch, resp: Response<seq<Post>>): (t: FeedState)
    ensures !t.loading && !t.loadingMore
    ensures t.page == s.page && t.category == s.category
    ensures resp.Ok? ==>
              && t.posts == (if f.append then s.posts + resp.body else resp.body)
              && t.hasMore == HasMore(f.pageNum, resp.totalPages, |resp.body|)
              && t.error == s.error
    ensures resp.NotOk? ==> t.posts == s.posts && t.hasMore == s.hasMore && t.error == s.error
    ensures resp.Thrown? ==>
              t.posts == s.posts && t.hasMore == s.hasMore && t.error == Some(ThrownMessage(resp.message))
  {
    var t := match resp
      case Ok(header, data) =>
        s.(hasMore := HasMore(f.pageNum, header, |data|),
           posts := if f.append then s.posts + data else data)
      case NotOk(_, _) => s
      case Thrown(message) => s.(error := Some(ThrownMessage(message)));
    t.(loading := false, loadingMore := false)
  }

  /**
   * The category effect: back to page 1 with `hasMore` raised, then a
   * replacing fetch of page 1. The old posts stay until a response arrives.
   */
  function SelectCategory(s: FeedState, c: Option<Category>): (r: (FeedState, PageFetch))
    ensures var (t, f) := r;
            && Valid(t) && t.page == 1 && t.hasMore && t.loading && t.error.None?
            && t.category == c && t.posts == s.posts && t.loadingMore == s.loadingMore
            && f.pageNum == 1 && !f.append
            && f.request == PageRequest(c, 1)
            && Lookup(f.request.params, "page") == Some("1")
  {
    assert NatToString(1) == "1";
    StartFetch(s.(category := c, page := 1, hasMore := true), 1, false)
  }

  /**
   * `loadMore`: ignored while a next page is loading or once the list is
   * exhausted (the initial `loading` flag is not consulted); otherwise the
   * page number goes up by one and an appending fetch of it starts.
   */
  function LoadMore(s: FeedState): (r: (FeedState, Option<PageFetch>))
    ensures s.loadingMore || !s.hasMore ==> r == (s, None)
    ensures !s.loadingMore && s.hasMore ==>
              && r.1.Some? && r.1.value.pageNum == s.page + 1 && r.1.value.append
              && r.1.value.request == PageRequest(s.category, s.page + 1)
              && r.0.category == s.category && r.0.loading == s.loading
              && r.0.page == s.page + 1 && r.0.loadingMore
              && r.0.posts == s.posts && r.0.hasMore && r.0.error.None?
  {
    if !s.loadingMore && s.hasMore then
      var (t, f) := StartFetch(s.(page := s.page + 1), s.page + 1, true);
      (t, Some(f))
    else (s, None)
  }

  /** What the screen renders. */
  datatype Screen = Spinner | ErrorScreen | PostList(items: seq<Post>)

  /** The spinner while the first load runs; the error view only when there is an error and nothing to show. */
  function View(s: FeedState): (v: Screen)
    ensures v == Spinner <==> s.loading
    ensures v == ErrorScreen <==> !s.loading && s.error.Some? && s.error.value != "" && s.posts == []
    ensures v.PostList? ==> v.items == s.posts
  {
    if s.loading then Spinner
    else if s.error.Some? && s.error.value != "" && |s.posts| == 0 then ErrorScreen
    else PostList(s.posts)
  }

  // ---------------------------------------------------------------- properties

  /** Every transition keeps pages numbered from 1. */
  lemma TransitionsKeepValid(s: FeedState, f: PageFetch, resp: Response<seq<Post>>, c: Option<Category>)
    requires Valid(s)
    ensures Valid(Complete(s, f, resp))
    ensures Valid(SelectCategory(s, c).0)
    ensures Valid(LoadMore(s).0)
  {
  }

  /** A failed next page keeps the list and `hasMore`, and does not roll the page number back. */
  lemma LoadMoreFailureKeepsPage(s: FeedState, resp: Response<seq<Post>>)
    requires !s.loadingMore && s.hasMore && !resp.Ok?
    ensures var (t, f) := LoadMore(s);
            var u := Complete(t, f.value, resp);
            u.posts == s.posts && u.hasMore && u.page == s.page + 1
  {
  }

  /** `loadMore` does not wait for the first page: it starts a fetch while `loading` is still raised. */
  lemma LoadMoreDuringInitialLoad(c: Option<Category>)
    ensures var (s, _) := SelectCategory(Initial(c), c);
            var (t, f) := LoadMore(s);
            f.Some? && t.loading && t.loadingMore && t.page == 2
  {
  }

  /** A failure while paging with posts on screen degrades silently: the list stays visible. */
  lemma FailureWithPostsKeepsList(s: FeedState, f: PageFetch, message: Option<string>)
    requires s.posts != []
    ensures View(Complete(s, f, Thrown(message))) == PostList(s.posts)
  {
  }

  /** A failure of the first load with nothing to show brings up the error view. */
  lemma FailureWithoutPostsShowsError(s: FeedState, f: PageFetch, message: string)
    requires s.posts == [] && message != ""
    ensures View(Complete(s, f, Thrown(Some(message)))) == ErrorScreen
  {
  }

  /**
   * Scrolling through a run of page responses, each of which may succeed
   * (with or without a total-pages header), fail with a status, or throw:
   * each `loadMore` that goes through consumes one response; the run stops
   * at the first ignored `loadMore`.
   */
  function Scroll(s: FeedState, responses: seq<Response<seq<Post>>>): FeedState
    decreases |responses|
  {
    if responses == [] then s
    else
      var (t, f) := LoadMore(s);
      if f.None? then s
      else Scroll(Complete(t, f.value, responses[0]), responses[1..])
  }

  /** Scrolling never reorders or drops what is already listed, and advances at most one page per response. */
  lemma {:induction false} ScrollKeepsPrefix(s: FeedState, responses: seq<Response<seq<Post>>>)
    ensures s.posts <= Scroll(s, responses).posts
    ensures s.page <= Scroll(s, responses).page <= s.page + |responses|
    decreases |responses|
  {
    if responses != [] {
      var (t, f) := LoadMore(s);
      if f.Some? {
        var u := Complete(t, f.value, responses[0]);
        ScrollKeepsPrefix(u, responses[1..]);
        assert s.posts <= u.posts;
      }
    }
  }

  /** Once scrolling has stopped on a short page, further `loadMore` calls are ignored. */
  lemma ShortPageStopsScrolling(s: FeedState, data: seq<Post>)
    requires !s.loadingMore && s.hasMore && |data| < PageSize
    ensures var (t, f) := LoadMore(s);
            var u := Complete(t, f.value, Ok(None, data));
            !u.hasMore && LoadMore(u) == (u, None)
  {
  }

  /**
   * `loadMore` followed by the successful arrival of the next page: the page
   * is appended, so the list shown so far stays a prefix.
   */
  function NextPage(s: FeedState, header: Option<string>, data: seq<Post>): (u: FeedState)
    requires !s.loadingMore && s.hasMore
    ensures !u.loadingMore && u.posts == s.posts + data && s.posts <= u.posts
    ensures u.page == s.page + 1 && u.hasMore == HasMore(s.page + 1, header, |data|)
  {
    var (t, f) := LoadMore(s);
    Complete(t, f.value, Ok(header, data))
  }

  /** The first page after choosing a category: whatever was listed before is replaced. */
  function FirstPage(s: FeedState, c: Option<Category>, header: Option<string>, data: seq<Post>): (u: FeedState)
    ensures !u.loadingMore && !u.loading && u.posts == data && u.page == 1 && u.category == c
    ensures u.hasMore == HasMore(1, header, |data|)
  {
    var (t, f) := SelectCategory(s, c);
    Complete(t, f, Ok(header, data))
  }

  /**
   * The Sports walk-through: ten posts with a total-pages header of "3",
   * then ten more, then four. The list grows 10, 20, 24 and is exhausted
   * after page 3.
   */
  lemma SportsWalkThrough(p1: seq<Post>, p2: seq<Post>, p3: seq<Post>)
    requires |p1| == 10 && |p2| == 10 && |p3| == 4
    ensures Lookup(SelectCategory(Initial(Some(Sports)), Some(Sports)).1.request.params, "categories") == Some("5")
    ensures var s1 := FirstPage(Initial(Some(Sports)), Some(Sports), Some("3"), p1);
            && s1.hasMore && |s1.posts| == 10
            && var s2 := NextPage(s1, Some("3"), p2);
               && s2.hasMore && |s2.posts| == 20 && s2.page == 2
               && var s3 := NextPage(s2, Some("3"), p3);
                  && !s3.hasMore && s3.posts == p1 + p2 + p3 && s3.page == 3
  {
    assert NatToString(3) == "3";
    assert NatToString(5) == "5";
    HasMoreWithHeader(1, 3, 10);
    var s1 := FirstPage(Initial(Some(Sports)), Some(Sports), Some("3"), p1);
    assert s1.hasMore;
    HasMoreWithHeader(2, 3, 10);
    var s2 := NextPage(s1, Some("3"), p2);
    assert s2.hasMore;
    HasMoreWithHeader(3, 3, 4);
    var s3 := NextPage(s2, Some("3"), p3);
    assert !s3.hasMore;
  }
}

=== FILE: fetching.dfy ===
/**
 * The outcome of one `fetch` as the screens see it, passed to the model as
 * a value: a response with an OK status (its `X-WP-TotalPages` header and its
 * parsed body), a response with another status, or a thrown failure
 * (transport error or unparsable body).
 */
module Fetching {
  import opened Optional

  datatype Response<T> =
    | Ok(totalPages: Option<string>, body: T)
    | NotOk(status: int, statusText: string)
    | Thrown(message: Option<string>)   // `None`: the thrown value is not an `Error`

  /** `err instanceof Error ? err.message : 'An error occurred'`. */
  function ThrownMessage(message: Option<string>): (r: string)
    ensures message.Some? ==> r == message.value
    ensures message.None? ==> r == "An error occurred"
  {
    message.GetOr("An error occurred")
  }
}

=== FILE: html.dfy ===
/**
 * `stripHtml`: delete every match of the regular expression `<[^>]*>`
 * (global replace with the empty string), then trim.
 *
 * A match starts at a '<' and, since `[^>]*` cannot cross a '>', ends at the
 * first '>' after it; a '<' with no '>' anywhere after it starts no match and
 * is kept.
 */
module Html {
  import opened JsText

  /** No '<' is followed, anywhere later, by a '>': nothing left for `<[^>]*>` to match. */
  predicate TagFree(s: string) {
    forall i, j :: 0 <= i < j < |s| && s[i] == '<' ==> s[j] != '>'
  }

  /** `s.replace(/<[^>]*>/g, '')`. */
  function RemoveTags(s: string): (r: string)
    ensures TagFree(r)
    ensures |r| <= |s|
    ensures forall c :: c in r ==> c in s
    decreases |s|
  {
    if s == [] then []
    else if s[0] == '<' && '>' in s[1..] then
      var close := 1 + IndexOf(s[1..], '>');
      RemoveTags(s[close + 1..])
    else
      var rest := RemoveTags(s[1..]);
      assert s[0] == '<' ==> '>' !in rest;
      [s[0]] + rest
  }

  /** `stripHtml(html)`. */
  function StripHtml(s: string): (r: string)
    ensures TagFree(r)
    ensures Trimmed(r)
  {
    var t := RemoveTags(s);
    TrimTagFree(t);
    Trim(t)
  }

  lemma SliceTagFree(s: string, i: nat, j: nat)
    requires i <= j <= |s| && TagFree(s)
    ensures TagFree(s[i..j])
  {
    var t := s[i..j];
    forall a, b | 0 <= a < b < |t| && t[a] == '<' ensures t[b] != '>' {
      assert t[a] == s[i + a] && t[b] == s[i + b];
    }
  }

  lemma TrimTagFree(s: string)
    requires TagFree(s)
    ensures TagFree(Trim(s))
  {
    var a := TrimStart(s);
    SliceTagFree(s, |s| - |a|, |s|);
    SliceTagFree(a, 0, |TrimEnd(a)|);
  }

  /** Text with nothing left to match passes through unchanged. */
  lemma {:induction false} RemoveTagsOfTagFree(s: string)
    requires TagFree(s)
    ensures RemoveTags(s) == s
  {
    if s != [] {
      if s[0] == '<' {
        forall j | 0 <= j < |s[1..]| ensures s[1..][j] != '>' {
          assert s[1..][j] == s[j + 1];
        }
      }
      SliceTagFree(s, 1, |s|);
      RemoveTagsOfTagFree(s[1..]);
    }
  }

  /** `stripHtml` is idempotent. */
  lemma {:induction false} StripHtmlIdempotent(s: string)
    ensures StripHtml(StripHtml(s)) == StripHtml(s)
  {
    var t := StripHtml(s);
    RemoveTagsOfTagFree(t);
    TrimOfTrimmed(t);
  }

  /** On text without '<', `stripHtml` is plain `trim`. */
  lemma StripHtmlWithoutAngle(s: string)
    requires '<' !in s
    ensures StripHtml(s) == Trim(s)
  {
    RemoveTagsOfTagFree(s);
  }

  /**
   * One tag is deleted whole: the text before it (free of '<') is kept, the
   * tag `<t>` disappears, and stripping carries on after the closing '>'.
   */
  lemma {:induction false} RemoveTagsDeletesTag(x: string, t: string, y: string)
    requires '<' !in x && '>' !in t
    ensures RemoveTags(x + "<" + t + ">" + y) == x + RemoveTags(y)
  {
    var s := x + "<" + t + ">" + y;
    if x == [] {
      assert s == "<" + t + ">" + y;
      assert s[1..] == t + ">" + y;
      assert IndexOf(s[1..], '>') == |t| by {
        assert s[1..][|t|] == '>';
        assert forall k :: 0 <= k < |t| ==> s[1..][k] == t[k];
      }
      assert s[|t| + 2..] == y;
    } else {
      assert s[0] == x[0];
      assert s[1..] == x[1..] + "<" + t + ">" + y;
      RemoveTagsDeletesTag(x[1..], t, y);
      assert [x[0]] + x[1..] == x;
    }
  }
}

=== FILE: js_text.dfy ===
/**
 * The few ECMAScript string primitives the application leans on, stated on
 * `seq<char>`: `String.prototype.trim`, `Number.prototype.toString` for
 * integral numbers, `parseInt(s, 10)`, and `Array.prototype.join(',')` with
 * its inverse `split(',')`.
 */
module JsText {
  import opened Optional

  /** ECMAScript WhiteSpace or LineTerminator (the set `trim` and `parseInt` skip). */
  predicate IsWhiteSpace(c: char) {
    var n := c as int;
    || n == 0x09 || n == 0x0A || n == 0x0B || n == 0x0C || n == 0x0D
    || n == 0x20 || n == 0xA0 || n == 0x1680
    || (0x2000 <= n <= 0x200A)
    || n == 0x2028 || n == 0x2029 || n == 0x202F || n == 0x205F
    || n == 0x3000 || n == 0xFEFF
  }

  /** Every character of `s` from index `lo` up to (not including) `hi` is white space. */
  predicate WhiteBetween(s: string, lo: int, hi: int)
    requires 0 <= lo <= hi <= |s|
  {
    forall k :: lo <= k < hi ==> IsWhiteSpace(s[k])
  }

  /** `s` neither starts nor ends with white space. */
  predicate Trimmed(s: string) {
    s == [] || (!IsWhiteSpace(s[0]) && !IsWhiteSpace(s[|s| - 1]))
  }

  /** Drops leading white space: the result is the suffix of `s` after a white-space run. */
  function TrimStart(s: string): (r: string)
    ensures |r| <= |s| && r == s[|s| - |r|..]
    ensures r == [] || !IsWhiteSpace(r[0])
  {
    if s != [] && IsWhiteSpace(s[0]) then TrimStart(s[1..]) else s
  }

  /** Drops trailing white space: the result is the prefix of `s` before a white-space run. */
  function TrimEnd(s: string): (r: string)
    ensures |r| <= |s| && r == s[..|r|]
    ensures r == [] || !IsWhiteSpace(r[|r| - 1])
  {
    if s != [] && IsWhiteSpace(s[|s| - 1]) then TrimEnd(s[..|s| - 1]) else s
  }

  /** What `TrimStart` drops is white space. */
  lemma {:induction false} TrimStartDropsWhiteSpace(s: string)
    ensures WhiteBetween(s, 0, |s| - |TrimStart(s)|)
  {
    if s != [] && IsWhiteSpace(s[0]) {
      var t := s[1..];
      TrimStartDropsWhiteSpace(t);
      forall k | 1 <= k < |s| - |TrimStart(s)| ensures IsWhiteSpace(s[k]) {
        assert s[k] == t[k - 1];
      }
    }
  }

  /** What `TrimEnd` drops is white space. */
  lemma {:induction false} TrimEndDropsWhiteSpace(s: string)
    ensures WhiteBetween(s, |TrimEnd(s)|, |s|)
  {
    if s != [] && IsWhiteSpace(s[|s| - 1]) {
      var t := s[..|s| - 1];
      TrimEndDropsWhiteSpace(t);
      forall k | |TrimEnd(s)| <= k < |t| ensures IsWhiteSpace(s[k]) {
        assert s[k] == t[k];
      }
    }
  }

  /** `String.prototype.trim`. */
  function Trim(s: string): (r: string)
    ensures Trimmed(r)
    ensures |r| <= |s|
  {
    TrimEnd(TrimStart(s))
  }

  /** Leading white space can be skipped before trimming the start. */
  lemma {:induction false} TrimStartSkips(s: string, i: nat)
    requires i <= |s| && WhiteBetween(s, 0, i)
    ensures TrimStart(s) == TrimStart(s[i..])
  {
    if i == 0 {
      assert s[i..] == s;
    } else {
      var t := s[1..];
      assert TrimStart(s) == TrimStart(t) by {
        assert IsWhiteSpace(s[0]);
      }
      assert WhiteBetween(t, 0, i - 1) by {
        forall k | 0 <= k < i - 1 ensures IsWhiteSpace(t[k]) {
          assert t[k] == s[k + 1];
        }
      }
      assert t[i - 1..] == s[i..];
      TrimStartSkips(t, i - 1);
    }
  }

  /** Trailing white space can be dropped before trimming the end. */
  lemma {:induction false} TrimEndSkips(s: string, j: nat)
    requires j <= |s| && WhiteBetween(s, j, |s|)
    ensures TrimEnd(s) == TrimEnd(s[..j])
    decreases |s| - j
  {
    if j == |s| {
      assert s[..j] == s;
    } else {
      var t := s[..|s| - 1];
      assert TrimEnd(s) == TrimEnd(t) by {
        assert IsWhiteSpace(s[|s| - 1]);
      }
      assert WhiteBetween(t, j, |t|) by {
        forall k | j <= k < |t| ensures IsWhiteSpace(t[k]) {
          assert t[k] == s[k];
        }
      }
      assert t[..j] == s[..j];
      TrimEndSkips(t, j);
    }
  }

  lemma TrimStartStops(u: string)
    requires u == [] || !IsWhiteSpace(u[0])
    ensures TrimStart(u) == u
  {
  }

  lemma TrimEndStops(u: string)
    requires u == [] || !IsWhiteSpace(u[|u| - 1])
    ensures TrimEnd(u) == u
  {
  }

  /** Text made only of white space trims to nothing. */
  lemma TrimAllWhiteSpace(s: string)
    requires WhiteBetween(s, 0, |s|)
    ensures Trim(s) == []
  {
    TrimStartSkips(s, |s|);
  }

  /** `TrimStart` stops at the first non-white-space character. */
  lemma TrimStartAt(s: string, i: nat)
    requires i < |s| && WhiteBetween(s, 0, i) && !IsWhiteSpace(s[i])
    ensures TrimStart(s) == s[i..]
  {
    TrimStartSkips(s, i);
    TrimStartStops(s[i..]);
  }

  /** `TrimEnd` stops at the last non-white-space character. */
  lemma TrimEndAt(s: string, j: nat)
    requires 0 < j <= |s| && WhiteBetween(s, j, |s|) && !IsWhiteSpace(s[j - 1])
    ensures TrimEnd(s) == s[..j]
  {
    TrimEndSkips(s, j);
    TrimEndStops(s[..j]);
  }

  /** Text with a non-white-space character at `i` and at `j - 1`, white space outside, trims to `s[i..j]`. */
  lemma TrimFrom(s: string, i: nat, j: nat)
    requires i < j <= |s|
    requires WhiteBetween(s, 0, i) && WhiteBetween(s, j, |s|)
    requires !IsWhiteSpace(s[i]) && !IsWhiteSpace(s[j - 1])
    ensures Trim(s) == s[i..j]
  {
    TrimStartAt(s, i);
    var u := s[i..];
    assert WhiteBetween(u, j - i, |u|) by {
      forall k | j - i <= k < |u| ensures IsWhiteSpace(u[k]) {
        assert u[k] == s[k + i];
      }
    }
    assert u[j - i - 1] == s[j - 1];
    TrimEndAt(u, j - i);
    assert u[..j - i] == s[i..j];
  }

  /**
   * Trim is characterised independently: whenever `s` splits as white space,
   * a middle part with no white space at either end, and white space, the
   * middle part is what `Trim` returns.
   */
  lemma TrimCharacterised(s: string, i: nat, j: nat)
    requires i <= j <= |s|
    requires WhiteBetween(s, 0, i) && WhiteBetween(s, j, |s|)
    requires Trimmed(s[i..j])
    ensures Trim(s) == s[i..j]
  {
    if i == j {
      assert WhiteBetween(s, 0, |s|);
      TrimAllWhiteSpace(s);
    } else {
      assert s[i] == s[i..j][0] && s[j - 1] == s[i..j][j - i - 1];
      TrimFrom(s, i, j);
    }
  }

  /** Trimmed text is its own trim. */
  lemma TrimOfTrimmed(s: string)
    requires Trimmed(s)
    ensures Trim(s) == s
  {
    TrimCharacterised(s, 0, |s|);
    assert s[0..|s|] == s;
  }

  /** Trimming twice is trimming once. */
  lemma TrimIdempotent(s: string)
    ensures Trim(Trim(s)) == Trim(s)
  {
    TrimOfTrimmed(Trim(s));
  }

  // ---------------------------------------------------------------- decimal digits

  predicate IsDigit(c: char) { '0' <= c <= '9' }

  predicate AllDigits(s: string) {
    forall k :: 0 <= k < |s| ==> IsDigit(s[k])
  }

  function DigitChar(d: nat): (c: char)
    requires d < 10
    ensures IsDigit(c) && (c as int) - ('0' as int) == d
  {
    (('0' as int) + d) as char
  }

  /** The number a string of decimal digits denotes. */
  function DigitsValue(s: string): nat
    requires AllDigits(s)
  {
    if s == [] then 0
    else DigitsValue(s[..|s| - 1]) * 10 + ((s[|s| - 1] as int) - ('0' as int))
  }

  /** `String(n)` for a non-negative integral number: its shortest decimal numeral. */
  function NatToString(n: nat): (r: string)
    ensures |r| >= 1 && AllDigits(r)
    ensures r[0] != '0' || n == 0
  {
    if n < 10 then [DigitChar(n)] else NatToString(n / 10) + [DigitChar(n % 10)]
  }

  /** `String(i)` for an integral number, negative ones with a leading '-'. */
  function IntToString(i: int): (r: string)
    ensures |r| >= 1
    ensures r[0] == '-' <==> i < 0
  {
    if i < 0 then "-" + NatToString(-i) else NatToString(i)
  }

  lemma {:induction false} NatToStringValue(n: nat)
    ensures DigitsValue(NatToString(n)) == n
  {
    var r := NatToString(n);
    if n >= 10 {
      assert r[..|r| - 1] == NatToString(n / 10);
      NatToStringValue(n / 10);
    }
  }

  /** Length of the longest prefix of `s` made of decimal digits. */
  function DigitRun(s: string): (k: nat)
    ensures k <= |s| && AllDigits(s[..k])
    ensures k == |s| || !IsDigit(s[k])
  {
    if s != [] && IsDigit(s[0]) then
      var k := 1 + DigitRun(s[1..]);
      assert forall m :: 1 <= m < k ==> s[..k][m] == s[1..][..k - 1][m - 1];
      k
    else 0
  }

  /**
   * `parseInt(s, 10)`: skip leading white space, take an optional sign, then
   * the longest run of decimal digits; no digits gives NaN (`None`).
   */
  function ParseInt(s: string): (r: Option<int>)
    ensures r.None? <==> DigitRun(SignStripped(TrimStart(s))) == 0
  {
    ParseSigned(TrimStart(s))
  }

  /** `parseInt` after the leading white space: an optional sign, then digits. */
  function ParseSigned(t: string): (r: Option<int>)
    ensures r.None? <==> DigitRun(SignStripped(t)) == 0
    ensures r.Some? && r.value < 0 ==> t[0] == '-'
  {
    if t != [] && t[0] == '-' then
      match ParseDigits(t[1..])
      case None => None
      case Some(v) => Some(-v)
    else ParseDigits(SignStripped(t))
  }

  /** The value of the longest leading digit run, if there is one. */
  function ParseDigits(u: string): (r: Option<int>)
    ensures r.None? <==> DigitRun(u) == 0
    ensures r.Some? ==> r.value >= 0
  {
    var k := DigitRun(u);
    if k == 0 then None else Some(DigitsValue(u[..k]))
  }

  /** `t` without its leading '+' or '-', if it has one. */
  function SignStripped(t: string): (u: string)
    ensures u == t || (t != [] && (t[0] == '-' || t[0] == '+') && u == t[1..])
  {
    if t != [] && (t[0] == '-' || t[0] == '+') then t[1..] else t
  }

  /** Whatever follows the digits is ignored. */
  lemma {:induction false} DigitRunOfDigitsThen(d: string, rest: string)
    requires AllDigits(d)
    requires rest == [] || !IsDigit(rest[0])
    ensures DigitRun(d + rest) == |d|
  {
    if d != [] {
      assert (d + rest)[1..] == d[1..] + rest;
      DigitRunOfDigitsThen(d[1..], rest);
    }
  }

  /** A digit run followed by a non-digit reads as the value of the run. */
  lemma {:induction false} ParseDigitsNumeral(d: string, rest: string)
    requires d != [] && AllDigits(d)
    requires rest == [] || !IsDigit(rest[0])
    ensures ParseDigits(d + rest) == Some(DigitsValue(d) as int)
  {
    DigitRunOfDigitsThen(d, rest);
    assert (d + rest)[..|d|] == d;
  }

  /** Text that starts with a digit carries no sign. */
  lemma ParseSignedUnsigned(u: string)
    requires u != [] && IsDigit(u[0])
    ensures ParseSigned(u) == ParseDigits(u)
  {
  }

  /** A leading '-' negates whatever the digits after it read as. */
  lemma ParseSignedMinus(u: string)
    ensures ParseSigned("-" + u) == match ParseDigits(u) { case None => None case Some(v) => Some(-v) }
  {
    var t := "-" + u;
    assert t[0] == '-' && t[1..] == u;
  }

  /** A digit run followed by a non-digit reads as its value, negated after a '-'. */
  lemma {:induction false} ParseSignedNumeral(d: string, rest: string)
    requires d != [] && AllDigits(d)
    requires rest == [] || !IsDigit(rest[0])
    ensures ParseSigned(d + rest) == Some(DigitsValue(d) as int)
    ensures ParseSigned("-" + (d + rest)) == Some(-(DigitsValue(d) as int))
  {
    ParseDigitsNumeral(d, rest);
    assert (d + rest)[0] == d[0];
    ParseSignedUnsigned(d + rest);
    ParseSignedMinus(d + rest);
  }

  /** A numeral followed by any non-digit text still reads as that numeral (`parseInt("3abc")`). */
  lemma {:induction false} ParseIntOfNumeralThen(n: nat, rest: string)
    requires rest == [] || !IsDigit(rest[0])
    ensures ParseInt(NatToString(n) + rest) == Some(n)
  {
    var d := NatToString(n);
    var t := d + rest;
    assert t[0] == d[0] && IsDigit(t[0]);
    TrimStartStops(t);
    ParseSignedNumeral(d, rest);
    NatToStringValue(n);
  }

  /** Reading a printed number back gives the number: `parseInt(String(n), 10) == n`. */
  lemma {:induction false} ParseIntOfNatToString(n: nat)
    ensures ParseInt(NatToString(n)) == Some(n)
  {
    ParseIntOfNumeralThen(n, []);
    assert NatToString(n) + [] == NatToString(n);
  }

  /** The same for any integral number, with its '-' sign (`parseInt("-5 mins ago")`). */
  lemma ParseIntOfIntNumeralThen(i: int, rest: string)
    requires rest == [] || !IsDigit(rest[0])
    ensures ParseInt(IntToString(i) + rest) == Some(i)
  {
    if i < 0 {
      var n: nat := -i;
      var d := NatToString(n);
      var t := "-" + (d + rest);
      assert IntToString(i) + rest == t;
      assert TrimStart(t) == t by {
        assert t[0] == '-';
        TrimStartStops(t);
      }
      assert ParseSigned(t) == Some(i) by {
        ParseSignedNumeral(d, rest);
        NatToStringValue(n);
      }
    } else {
      ParseIntOfNumeralThen(i, rest);
    }
  }

  // ---------------------------------------------------------------- join / split

  /** `ids.join(',')` over integral numbers. */
  function JoinNats(ids: seq<nat>): (r: string)
    ensures ids == [] <==> r == []
  {
    if ids == [] then []
    else if |ids| == 1 then NatToString(ids[0])
    else NatToString(ids[0]) + "," + JoinNats(ids[1..])
  }

  /** Index of the first `c` in `s`, or `|s|` when there is none. */
  function IndexOf(s: string, c: char): (i: nat)
    ensures i <= |s|
    ensures i < |s| ==> s[i] == c
    ensures forall k :: 0 <= k < i ==> s[k] != c
  {
    if s == [] then 0 else if s[0] == c then 0 else 1 + IndexOf(s[1..], c)
  }

  /** `s.split(',')`: the pieces between commas, in order. */
  function SplitCommas(s: string): (r: seq<string>)
    ensures |r| >= 1
    ensures forall k :: 0 <= k < |r| ==> ',' !in r[k]
    decreases |s|
  {
    var i := IndexOf(s, ',');
    if i == |s| then
      assert forall c :: c in s ==> c != ',';
      [s]
    else
      assert forall c :: c in s[..i] ==> c != ',';
      [s[..i]] + SplitCommas(s[i + 1..])
  }

  lemma SplitCommasAfterPiece(a: string, b: string)
    requires ',' !in a
    ensures SplitCommas(a + "," + b) == [a] + SplitCommas(b)
  {
    var s := a + "," + b;
    assert forall k :: 0 <= k < |a| ==> s[k] == a[k];
    assert s[|a|] == ',';
    assert IndexOf(s, ',') == |a|;
    assert s[..|a|] == a && s[|a| + 1..] == b;
  }

  lemma NoCommaInNumeral(n: nat)
    ensures ',' !in NatToString(n)
  {
    var s := NatToString(n);
    assert forall k :: 0 <= k < |s| ==> s[k] != ',' by {
      forall k | 0 <= k < |s| ensures s[k] != ',' { assert IsDigit(s[k]); }
    }
  }

  /** Splitting the joined ids at commas gives back each id's numeral, in order. */
  lemma {:induction false} SplitJoinNats(ids: seq<nat>)
    requires ids != []
    ensures |SplitCommas(JoinNats(ids))| == |ids|
    ensures forall k :: 0 <= k < |ids| ==> SplitCommas(JoinNats(ids))[k] == NatToString(ids[k])
  {
    NoCommaInNumeral(ids[0]);
    if |ids| == 1 {
      assert IndexOf(NatToString(ids[0]), ',') == |NatToString(ids[0])|;
    } else {
      SplitJoinNats(ids[1..]);
      SplitCommasAfterPiece(NatToString(ids[0]), JoinNats(ids[1..]));
    }
  }

  /** `ids.join(',')` loses nothing: reading every piece back with `parseInt` gives `ids`. */
  lemma {:induction false} JoinNatsRoundTrip(ids: seq<nat>)
    requires ids != []
    ensures var pieces := SplitCommas(JoinNats(ids));
            |pieces| == |ids| &&
            forall k :: 0 <= k < |ids| ==> ParseInt(pieces[k]) == Some(ids[k])
  {
    SplitJoinNats(ids);
    forall k | 0 <= k < |ids| ensures ParseInt(SplitCommas(JoinNats(ids))[k]) == Some(ids[k]) {
      ParseIntOfNatToString(ids[k]);
    }
  }
}

=== FILE: optional.dfy ===
/** Optional values: JavaScript's `null`/`undefined` next to a present value. */
module Optional {

  datatype Option<+T> = None | Some(value: T) {

    /** The value if present, otherwise `default` (the `x ?? d` idiom). */
    function GetOr(default: T): T {
      match this
      case Some(v) => v
      case None => default
    }
  }
}

=== FILE: post_card.dfy ===
/** What one card of the list shows for a post. */
module PostCard {
  import opened Optional
  import opened JsText
  import opened Posts
  import opened Html
  import opened TimeAgo

  datatype Card = Card(image: Option<string>, title: string, excerpt: string, age: string)

  /**
   * The card for `p`, `diff` milliseconds after its publication (`None` for
   * an unparsable date): the featured image if any, the title and excerpt
   * with tags removed and trimmed, and the time-ago label.
   */
  function CardView(p: Post, diff: Option<int>): (c: Card)
    ensures c.image == FirstTruthy([FirstField(p.ogImages), FirstField(p.featuredMedia)])
    ensures c.image.None? <==> !Truthy(FirstField(p.ogImages)) && !Truthy(FirstField(p.featuredMedia))
    ensures Truthy(FirstField(p.ogImages)) ==> c.image == FirstField(p.ogImages)
    ensures c.image.Some? ==> c.image.value != ""
    ensures c.title == StripHtml(p.title) && c.excerpt == StripHtml(p.excerpt)
    ensures TagFree(c.title) && Trimmed(c.title) && TagFree(c.excerpt) && Trimmed(c.excerpt)
    ensures '<' !in p.title ==> c.title == Trim(p.title)
    ensures '<' !in p.excerpt ==> c.excerpt == Trim(p.excerpt)
    ensures c.age == TimeAgoText(diff)
    ensures diff.Some? ==> ParseInt(c.age) == Some(Bucket(diff.value).count)
  {
    FeaturedImageIsFirstTruthy(p);
    assert '<' !in p.title ==> StripHtml(p.title) == Trim(p.title) by {
      if '<' !in p.title { StripHtmlWithoutAngle(p.title); }
    }
    assert '<' !in p.excerpt ==> StripHtml(p.excerpt) == Trim(p.excerpt) by {
      if '<' !in p.excerpt { StripHtmlWithoutAngle(p.excerpt); }
    }
    Card(FeaturedImage(p), StripHtml(p.title), StripHtml(p.excerpt), TimeAgoText(diff))
  }
}

=== FILE: post_detail.dfy ===
/**
 * The post detail screen: load one post by id, derive its header title and
 * category label, then fetch a few related posts on a best-effort basis;
 * and the share buttons.
 */
module PostDetail {
  import opened Optional
  import opened JsText
  import opened Query
  import opened Posts
  import opened Fetching
  import opened Html
  import opened TimeAgo
  import opened PostCard

  const ApiUrl: string := "https://infoland.ng/wp-json/wp/v2/posts"

  /** Related posts requested at most. */
  const RelatedCount: nat := 3

  datatype DetailState = DetailState(
    post: Option<Post>,
    loading: bool,
    error: Option<string>,
    related: seq<Post>,
    loadingRelated: bool,
    categoryName: Option<string>)

  /** On mount: no post yet, loading, no error, no related posts, no category label. */
  function Initial(): (s: DetailState)
    ensures s.post.None? && s.loading && s.error.None? && s.related == []
    ensures !s.loadingRelated && s.categoryName.None?
  {
    DetailState(None, true, None, [], false, None)
  }

  /**
   * Start of `fetchPost`: a missing or empty `postId` is an error and no
   * request is made; otherwise the single post is requested with embeds.
   */
  function FetchPost(s: DetailState, postId: Option<string>): (r: (DetailState, Option<Request>))
    ensures (postId.None? || postId.value == "") <==> r.1.None?
    ensures r.1.None? ==> r.0 == s.(error := Some("Post ID is required"), loading := false)
    ensures r.1.Some? ==>
              && r.0 == s.(loading := true, error := None)
              && r.1.value.base == ApiUrl + "/" + postId.value
              && Lookup(r.1.value.params, "_embed") == Some("true")
  {
    if postId.None? || postId.value == "" then
      (s.(error := Some("Post ID is required"), loading := false), None)
    else
      (s.(loading := true, error := None), Some(Request(ApiUrl + "/" + postId.value, [("_embed", "true")])))
  }

  /** Related posts from the same categories (`ids` non-empty), without `p` itself. */
  function SameCategoriesParams(ids: seq<nat>, id: string): (ps: Params)
    requires ids != []
    ensures Lookup(ps, "categories") == Some(JoinNats(ids))
    ensures Lookup(ps, "exclude") == Some(id)
    ensures Lookup(ps, "per_page") == Some("3")
    ensures Lookup(ps, "orderby").None?
  {
    var ps := [("categories", JoinNats(ids)), ("exclude", id), ("per_page", "3"), ("_embed", "true")];
    assert ps[1..][1..][1..][1..] == [];
    assert Lookup(ps[1..][1..], "per_page") == Some("3");
    ps
  }

  /** The most recent posts, newest first, without `p` itself. */
  function RecentParams(id: string): (ps: Params)
    ensures Lookup(ps, "categories").None?
    ensures Lookup(ps, "exclude") == Some(id)
    ensures Lookup(ps, "per_page") == Some("3")
    ensures Lookup(ps, "orderby") == Some("date") && Lookup(ps, "order") == Some("desc")
  {
    var head := [("exclude", id), ("per_page", "3"), ("_embed", "true")];
    var tail := [("orderby", "date"), ("order", "desc")];
    assert Lookup(head, "order").None? && Lookup(head, "orderby").None?;
    assert Lookup(tail, "order") == Some("desc") by {
      assert tail[1..] == [("order", "desc")];
    }
    LookupAppend(head, tail, "categories");
    LookupAppend(head, tail, "exclude");
    LookupAppend(head, tail, "per_page");
    LookupAppend(head, tail, "orderby");
    LookupAppend(head, tail, "order");
    head + tail
  }

  /**
   * The related-posts request for `p`: the posts sharing one of its
   * categories, or, when it has none, the most recent posts; always
   * excluding `p` itself and at most three.
   */
  function RelatedRequest(p: Post): (q: Request)
    ensures q.base == ApiUrl
    ensures Lookup(q.params, "exclude") == Some(NatToString(p.id))
    ensures Lookup(q.params, "per_page") == Some(NatToString(RelatedCount))
    ensures Lookup(q.params, "categories").Some? <==> CategoryIds(p) != []
    ensures CategoryIds(p) != [] ==> Lookup(q.params, "categories") == Some(JoinNats(CategoryIds(p)))
    ensures CategoryIds(p) != [] ==> Lookup(q.params, "orderby").None?
    ensures CategoryIds(p) == [] ==>
              Lookup(q.params, "orderby") == Some("date") && Lookup(q.params, "order") == Some("desc")
  {
    var ids := CategoryIds(p);
    assert NatToString(RelatedCount) == "3";
    if ids != [] then Request(ApiUrl, SameCategoriesParams(ids, NatToString(p.id)))
    else Request(ApiUrl, RecentParams(NatToString(p.id)))
  }

  /** The same-category URL, parameter by parameter in the template's order. */
  lemma SameCategoriesUrl(ids: seq<nat>, id: string)
    requires ids != []
    ensures Request(ApiUrl, SameCategoriesParams(ids, id)).Url()
         == ApiUrl + "?" + "categories" + "=" + JoinNats(ids) + "&" + "exclude" + "=" + id
            + "&" + "per_page" + "=" + "3" + "&" + "_embed" + "=" + "true"
  {
    var ps2 := [("categories", JoinNats(ids)), ("exclude", id)];
    var ps3 := ps2 + [("per_page", "3")];
    UrlOfTwo(ApiUrl, "categories", JoinNats(ids), "exclude", id);
    UrlSnoc(ApiUrl, ps2, "per_page", "3");
    UrlSnoc(ApiUrl, ps3, "_embed", "true");
    assert ps3 + [("_embed", "true")] == SameCategoriesParams(ids, id);
  }

  /** The most-recent URL, parameter by parameter in the template's order. */
  lemma RecentUrl(id: string)
    ensures Request(ApiUrl, RecentParams(id)).Url()
         == ApiUrl + "?" + "exclude" + "=" + id + "&" + "per_page" + "=" + "3"
            + "&" + "_embed" + "=" + "true" + "&" + "orderby" + "=" + "date" + "&" + "order" + "=" + "desc"
  {
    var ps2 := [("exclude", id), ("per_page", "3")];
    var ps3 := ps2 + [("_embed", "true")];
    var ps4 := ps3 + [("orderby", "date")];
    UrlOfTwo(ApiUrl, "exclude", id, "per_page", "3");
    UrlSnoc(ApiUrl, ps2, "_embed", "true");
    UrlSnoc(ApiUrl, ps3, "orderby", "date");
    UrlSnoc(ApiUrl, ps4, "order", "desc");
    assert ps4 + [("order", "desc")] == RecentParams(id);
  }

  /**
   * The URL fetched for the related posts: the same-category template, or
   * the most-recent template when the post has no category.
   */
  lemma RelatedRequestUrl(p: Post)
    ensures var url := RelatedRequest(p).Url();
            var id := NatToString(p.id);
            && (CategoryIds(p) != [] ==>
                  url == ApiUrl + "?" + "categories" + "=" + JoinNats(CategoryIds(p)) + "&" + "exclude" + "=" + id
                         + "&" + "per_page" + "=" + "3" + "&" + "_embed" + "=" + "true")
            && (CategoryIds(p) == [] ==>
                  url == ApiUrl + "?" + "exclude" + "=" + id + "&" + "per_page" + "=" + "3"
                         + "&" + "_embed" + "=" + "true" + "&" + "orderby" + "=" + "date" + "&" + "order" + "=" + "desc")
  {
    if CategoryIds(p) != [] {
      SameCategoriesUrl(CategoryIds(p), NatToString(p.id));
    } else {
      RecentUrl(NatToString(p.id));
    }
  }

  /** The category ids asked for can be read back from the request, one by one. */
  lemma {:induction false} RelatedCategoriesRoundTrip(p: Post)
    requires CategoryIds(p) != []
    ensures var pieces := SplitCommas(Lookup(RelatedRequest(p).params, "categories").value);
            |pieces| == |CategoryIds(p)| &&
            forall k :: 0 <= k < |pieces| ==> ParseInt(pieces[k]) == Some(CategoryIds(p)[k])
  {
    JoinNatsRoundTrip(CategoryIds(p));
  }

  /** What a successful load hands to the outside: the header title and the related request. */
  datatype Loaded = Loaded(state: DetailState, headerTitle: Option<string>, relatedRequest: Option<Request>)

  /**
   * Arrival of the post. On success the post is stored, the header title is
   * the stripped title, the category label is updated and the related fetch
   * starts. A non-OK status or a thrown failure is recorded as the error.
   * Loading ends in every case.
   */
  function PostArrived(s: DetailState, resp: Response<Post>): (r: Loaded)
    ensures !r.state.loading
    ensures r.state.related == s.related
    ensures resp.Ok? ==>
              && r.state.post == Some(resp.body) && r.state.error == s.error
              && r.state.categoryName == CategoryNameAfter(s.categoryName, resp.body)
              && r.state.loadingRelated
              && r.headerTitle == Some(StripHtml(resp.body.title))
              && r.relatedRequest == Some(RelatedRequest(resp.body))
    ensures resp.NotOk? ==>
              && r.state.error == Some("Failed to fetch post: " + IntToString(resp.status) + " " + resp.statusText)
              && r.state.post == s.post && r.relatedRequest.None?
    ensures resp.Thrown? ==>
              && r.state.error == Some(ThrownMessage(resp.message))
              && r.state.post == s.post && r.relatedRequest.None?
    ensures !resp.Ok? ==> r.state == s.(loading := false, error := r.state.error) && r.headerTitle.None?
  {
    match resp
    case Ok(_, data) =>
      var t := s.(post := Some(data), categoryName := CategoryNameAfter(s.categoryName, data),
                  loadingRelated := true, loading := false);
      Loaded(t, Some(StripHtml(data.title)), Some(RelatedRequest(data)))
    case NotOk(status, statusText) =>
      var message := "Failed to fetch post: " + IntToString(status) + " " + statusText;
      Loaded(s.(error := Some(message), loading := false), None, None)
    case Thrown(message) =>
      Loaded(s.(error := Some(ThrownMessage(message)), loading := false), None, None)
  }

  /**
   * Arrival of the related posts. Only an OK response replaces the list; a
   * failure is swallowed. The post, its error and the loading flag are never
   * touched, and `loadingRelated` ends false.
   */
  function RelatedArrived(s: DetailState, resp: Response<seq<Post>>): (t: DetailState)
    ensures !t.loadingRelated
    ensures t.post == s.post && t.error == s.error && t.loading == s.loading
    ensures t.categoryName == s.categoryName
    ensures t.related == (if resp.Ok? then resp.body else s.related)
  {
    match resp
    case Ok(_, data) => s.(related := data, loadingRelated := false)
    case _ => s.(loadingRelated := false)
  }

  /** A failing related fetch leaves an already shown post displayed, without an error. */
  lemma RelatedFailureIsHarmless(s: DetailState, p: Post, status: int, statusText: string)
    requires s.post.None? && s.error.None? && s.related == []
    ensures var loaded := PostArrived(s, Ok(None, p));
            var t := RelatedArrived(loaded.state, NotOk(status, statusText));
            t.post == Some(p) && t.error.None? && t.related == [] && !t.loading && !t.loadingRelated
  {
  }

  /** The URL fetched for the post itself: `<api>/<postId>?_embed=true`. */
  lemma PostRequestUrl(s: DetailState, postId: string)
    requires postId != ""
    ensures FetchPost(s, Some(postId)).1.value.Url() == ApiUrl + "/" + postId + "?" + "_embed" + "=" + "true"
  {
    UrlOfOne(ApiUrl + "/" + postId, "_embed", "true");
  }

  /**
   * A first visit: the screen mounts, asks for the post, the post arrives,
   * then its related posts do. The post is shown without error, the related
   * list is filled and both spinners are off.
   */
  lemma FirstVisit(postId: string, p: Post, related: seq<Post>)
    requires postId != ""
    ensures var (s1, q) := FetchPost(Initial(), Some(postId));
            && q.Some? && s1.loading && s1.post.None?
            && var loaded := PostArrived(s1, Ok(None, p));
               && loaded.relatedRequest == Some(RelatedRequest(p))
               && var t := RelatedArrived(loaded.state, Ok(None, related));
                  && t.post == Some(p) && t.error.None? && t.related == related
                  && !t.loading && !t.loadingRelated
  {
  }

  /** Every outcome of the whole detail load ends with `loading` false. */
  lemma LoadingEnds(s: DetailState, postId: Option<string>, resp: Response<Post>)
    ensures FetchPost(s, postId).1.None? ==> !FetchPost(s, postId).0.loading
    ensures FetchPost(s, postId).1.Some? ==> !PostArrived(FetchPost(s, postId).0, resp).state.loading
  {
  }

  // ---------------------------------------------------------------- sharing

  datatype Platform = Twitter | Facebook | LinkedIn

  /**
   * The URL a share button opens; nothing while no post is loaded. The link
   * and title go through `encodeURIComponent`, passed in as `encode`.
   */
  function ShareRequest(post: Option<Post>, platform: Platform, encode: string -> string): (r: Option<Request>)
    ensures post.None? <==> r.None?
    ensures r.Some? ==>
              && Lookup(r.value.params, if platform == Facebook then "u" else "url") == Some(encode(post.value.link))
              && (Lookup(r.value.params, "text").Some? <==> platform == Twitter)
              && (platform == Twitter ==> Lookup(r.value.params, "text") == Some(encode(StripHtml(post.value.title))))
              && (platform != Twitter ==> |r.value.params| == 1)
  {
    if post.None? then None
    else
      var link := encode(post.value.link);
      var title := encode(StripHtml(post.value.title));
      Some(Request(ShareBase(platform), ShareParams(platform, link, title)))
  }

  function ShareBase(platform: Platform): string {
    match platform
    case Twitter => "https://twitter.com/intent/tweet"
    case Facebook => "https://www.facebook.com/sharer/sharer.php"
    case LinkedIn => "https://www.linkedin.com/sharing/share-offsite/"
  }

  /** The query of a share URL: the link under `url` (`u` for Facebook), and the title for Twitter only. */
  function ShareParams(platform: Platform, link: string, title: string): (ps: Params)
    ensures Lookup(ps, if platform == Facebook then "u" else "url") == Some(link)
    ensures Lookup(ps, "text").Some? <==> platform == Twitter
    ensures platform == Twitter ==> Lookup(ps, "text") == Some(title)
    ensures platform != Twitter ==> |ps| == 1
  {
    match platform
    case Twitter =>
      var ps := [("url", link), ("text", title)];
      assert Lookup(ps, "text") == Some(title) by {
        assert ps[0].0 != "text" && ps[1..] == [("text", title)];
      }
      ps
    case Facebook =>
      assert "u" != "text";
      [("u", link)]
    case LinkedIn =>
      assert "url" != "text";
      [("url", link)]
  }

  /** The URL handed to `Linking.openURL`, spelled out per platform. */
  lemma ShareUrl(p: Post, platform: Platform, encode: string -> string)
    ensures var link := encode(p.link);
            var title := encode(StripHtml(p.title));
            ShareRequest(Some(p), platform, encode).value.Url() ==
              match platform
              case Twitter => ShareBase(Twitter) + "?" + "url" + "=" + link + "&" + "text" + "=" + title
              case Facebook => ShareBase(Facebook) + "?" + "u" + "=" + link
              case LinkedIn => ShareBase(LinkedIn) + "?" + "url" + "=" + link
    ensures ShareBase(Twitter) == "https://twitter.com/intent/tweet"
    ensures ShareBase(Facebook) == "https://www.facebook.com/sharer/sharer.php"
    ensures ShareBase(LinkedIn) == "https://www.linkedin.com/sharing/share-offsite/"
  {
    var link := encode(p.link);
    var title := encode(StripHtml(p.title));
    var base := ShareBase(platform);
    match platform
    case Twitter => UrlOfTwo(base, "url", link, "text", title);
    case Facebook => UrlOfOne(base, "u", link);
    case LinkedIn => UrlOfOne(base, "url", link);
  }

  // ---------------------------------------------------------------- rendering

  /** The fields the detail screen renders once a post is loaded. */
  datatype Article = Article(image: Option<string>, category: Option<string>, title: string, age: string, body: string)

  /**
   * The rendered article, `diff` milliseconds after the post's date (`None`
   * for an unparsable date): the featured image, the category label when it
   * is non-empty, and the stripped title and content with the time-ago label.
   */
  function ArticleView(s: DetailState, diff: Option<int>): (r: Option<Article>)
    ensures r.Some? <==> !s.loading && s.post.Some? && !(s.error.Some? && s.error.value != "")
    ensures r.Some? ==> r.value.image == FirstTruthy([FirstField(s.post.value.ogImages), FirstField(s.post.value.featuredMedia)])
    ensures r.Some? ==> r.value.image.None? || r.value.image.value != ""
    ensures r.Some? ==> r.value.category == if Truthy(s.categoryName) then s.categoryName else None
    ensures r.Some? ==> r.value.title == StripHtml(s.post.value.title) && TagFree(r.value.title) && Trimmed(r.value.title)
    ensures r.Some? ==> r.value.body == StripHtml(s.post.value.content) && TagFree(r.value.body) && Trimmed(r.value.body)
    ensures r.Some? ==> r.value.age == TimeAgoText(diff)
    ensures r.Some? && diff.Some? ==> ParseInt(r.value.age) == Some(Bucket(diff.value).count)
  {
    if s.loading || (s.error.Some? && s.error.value != "") || s.post.None? then None
    else
      var p := s.post.value;
      FeaturedImageIsFirstTruthy(p);
      var category := if Truthy(s.categoryName) then s.categoryName else None;
      Some(Article(FeaturedImage(p), category, StripHtml(p.title), TimeAgoText(diff), StripHtml(p.content)))
  }

  /**
   * The detail screen and the list card of the same post agree: same image,
   * same stripped title, same time-ago label.
   */
  lemma ArticleMatchesCard(s: DetailState, diff: Option<int>)
    requires !s.loading && s.post.Some? && !(s.error.Some? && s.error.value != "")
    ensures ArticleView(s, diff).Some?
    ensures var a := ArticleView(s, diff).value;
            var c := CardView(s.post.value, diff);
            a.image == c.image && a.title == c.title && a.age == c.age
  {
  }
}

=== FILE: posts.dfy ===
/**
 * The post record the provider returns, reduced to the fields the screens
 * read, and the derived values every screen computes from it.
 */
module Posts {
  import opened Optional

  /** One entry of an embedded term list. */
  datatype Term = Term(name: string)

  /**
   * A post. Optional provider objects are flattened to the lists the code
   * reaches through optional chaining: `None` stands for any missing link of
   * the chain, and a list element `None` for an entry without the field.
   */
  datatype Post = Post(
    id: nat,
    title: string,                          // title.rendered (HTML)
    excerpt: string,                        // excerpt.rendered (HTML)
    content: string,                        // content.rendered (HTML)
    link: string,
    categories: Option<seq<nat>>,           // categories
    ogImages: Option<seq<Option<string>>>,  // yoast_head_json.og_image[*].url
    featuredMedia: Option<seq<Option<string>>>, // _embedded['wp:featuredmedia'][*].source_url
    terms: Option<seq<seq<Term>>>           // _embedded['wp:term']
  )

  /** JavaScript truthiness of an optional string: present and non-empty. */
  predicate Truthy(u: Option<string>) {
    u.Some? && u.value != ""
  }

  /** JavaScript `a || b` on optional strings. */
  function Or(a: Option<string>, b: Option<string>): Option<string> {
    if Truthy(a) then a else b
  }

  /** `xs?.[0]?.field`. */
  function FirstField(xs: Option<seq<Option<string>>>): Option<string> {
    if xs.Some? && |xs.value| > 0 then xs.value[0] else None
  }

  /** `og_image?.[0]?.url || 'wp:featuredmedia'?.[0]?.source_url || null`. */
  function FeaturedImage(p: Post): Option<string> {
    Or(FirstField(p.ogImages), Or(FirstField(p.featuredMedia), None))
  }

  /** Reference definition: the first truthy candidate, or none. */
  function FirstTruthy(cs: seq<Option<string>>): (r: Option<string>)
    ensures r.None? <==> forall k :: 0 <= k < |cs| ==> !Truthy(cs[k])
    ensures r.Some? ==> r.value != ""
    ensures r.Some? ==> exists k :: 0 <= k < |cs| && cs[k] == r && (forall m :: 0 <= m < k ==> !Truthy(cs[m]))
  {
    if cs == [] then None
    else if Truthy(cs[0]) then cs[0]
    else
      var r := FirstTruthy(cs[1..]);
      assert r.Some? ==> exists k :: 0 < k < |cs| && cs[k] == r && (forall m :: 0 <= m < k ==> !Truthy(cs[m])) by {
        if r.Some? {
          var k :| 0 <= k < |cs[1..]| && cs[1..][k] == r && forall m :: 0 <= m < k ==> !Truthy(cs[1..][m]);
          assert cs[k + 1] == r;
          assert forall m :: 0 <= m < k + 1 ==> !Truthy(cs[m]) by {
            forall m | 0 <= m < k + 1 ensures !Truthy(cs[m]) {
              if m > 0 { assert cs[m] == cs[1..][m - 1]; }
            }
          }
        }
      }
      r
  }

  /**
   * The featured image is the first truthy of the Open Graph image URL and
   * the embedded featured-media URL; missing objects and empty strings fall
   * through to the next source, and nothing truthy gives no image.
   */
  lemma FeaturedImageIsFirstTruthy(p: Post)
    ensures FeaturedImage(p) == FirstTruthy([FirstField(p.ogImages), FirstField(p.featuredMedia)])
  {
    var cs := [FirstField(p.ogImages), FirstField(p.featuredMedia)];
    assert cs[1..][1..] == [];
  }

  /** `post.categories || []`. */
  function CategoryIds(p: Post): (ids: seq<nat>)
    ensures p.categories.Some? ==> ids == p.categories.value
    ensures p.categories.None? ==> ids == []
  {
    p.categories.GetOr([])
  }

  /**
   * The category label the detail screen shows after loading `p`: the name
   * of the first entry of the first embedded term list when that list is
   * non-empty; otherwise the label it showed before.
   */
  function CategoryNameAfter(previous: Option<string>, p: Post): (r: Option<string>)
    ensures (p.terms.Some? && |p.terms.value| > 0 && |p.terms.value[0]| > 0) ==>
              r == Some(p.terms.value[0][0].name)
    ensures !(p.terms.Some? && |p.terms.value| > 0 && |p.terms.value[0]| > 0) ==> r == previous
  {
    var first := if p.terms.Some? && |p.terms.value| > 0 then p.terms.value[0] else [];
    if |first| > 0 then Some(first[0].name) else previous
  }
}

=== FILE: preferences.dfy ===
/**
 * The locally stored user preferences: theme, notification level,
 * notifications on/off, home category and notification categories. The
 * key/value store is a map; every read and write outcome is an input.
 */
module Preferences {
  import opened Optional

  const ThemeKey: string := "@infoland_theme_preference"
  const NotificationsKey: string := "@infoland_notifications_preference"
  const NotificationsEnabledKey: string := "@infoland_notifications_enabled"
  const CategoryKey: string := "@infoland_category_preference"
  const NotificationCategoriesKey: string := "@infoland_notification_categories"

  type Store = map<string, string>

  /** The result of `getItem`: the stored string or `null`, or a thrown failure. */
  datatype ReadResult = Value(saved: Option<string>) | ReadFailed

  /** `getItem(key)` on a store that answers. */
  function Get(store: Store, key: string): (r: ReadResult)
    ensures r.Value? && (r.saved.Some? <==> key in store)
  {
    Value(if key in store then Some(store[key]) else None)
  }

  /** A non-empty stored string (`if (saved)`). */
  predicate TruthyRead(r: ReadResult) {
    r.Value? && r.saved.Some? && r.saved.value != ""
  }

  /**
   * A save: `setItem(key, value)` and, only once it has succeeded, the new
   * in-memory state. A failed write is caught and changes nothing.
   */
  function Persist<S>(s: S, next: S, store: Store, key: string, value: string, writeOk: bool): (r: (S, Store))
    ensures writeOk ==> r.0 == next && key in r.1 && r.1[key] == value
    ensures writeOk ==> forall k :: k in store && k != key ==> k in r.1 && r.1[k] == store[k]
    ensures writeOk ==> r.1.Keys == store.Keys + {key}
    ensures !writeOk ==> r == (s, store)
  {
    if writeOk then (next, store[key := value]) else (s, store)
  }

  // ---------------------------------------------------------------- theme

  datatype ThemePreference = Light | Dark | System {
    function Name(): string {
      match this
      case Light => "light"
      case Dark => "dark"
      case System => "system"
    }
  }

  /**
   * The theme state. The stored preference is adopted without checking it
   * is one of the three names, so it is held as a string.
   */
  datatype ThemeState = ThemeState(preference: string, isLoading: bool)

  function ThemeInitial(): ThemeState {
    ThemeState("system", true)
  }

  /** `getEffectiveTheme`: "system" follows the OS scheme (dark only when it says "dark"). */
  function EffectiveTheme(preference: string, systemScheme: Option<string>): (r: string)
    ensures preference == "system" ==> (r == "dark" <==> systemScheme == Some("dark"))
    ensures preference == "system" ==> (r == "light" <==> systemScheme != Some("dark"))
    ensures preference != "system" ==> r == preference
  {
    if preference == "system" then
      if systemScheme == Some("dark") then "dark" else "light"
    else preference
  }

  /** For each of the three preferences the effective theme is "light" or "dark". */
  lemma EffectiveThemeIsLightOrDark(p: ThemePreference, systemScheme: Option<string>)
    ensures EffectiveTheme(p.Name(), systemScheme) == "light" || EffectiveTheme(p.Name(), systemScheme) == "dark"
  {
  }

  /** Theme load: any non-empty stored string is adopted; loading ends even when the read fails. */
  function LoadTheme(s: ThemeState, read: ReadResult): (t: ThemeState)
    ensures !t.isLoading
    ensures TruthyRead(read) ==> t.preference == read.saved.value
    ensures !TruthyRead(read) ==> t.preference == s.preference
  {
    if TruthyRead(read) then ThemeState(read.saved.value, false) else s.(isLoading := false)
  }

  /** A stored value outside the three names reaches the effective theme unchanged. */
  lemma UnvalidatedThemeReachesEffectiveTheme(systemScheme: Option<string>)
    ensures EffectiveTheme(LoadTheme(ThemeInitial(), Value(Some("blue"))).preference, systemScheme) == "blue"
  {
  }

  /** The background colour `setBackgroundColorAsync` is called with after a theme save. */
  function SystemBackground(p: ThemePreference): (r: Option<string>)
    ensures r.None? <==> p == System
    ensures p == Light ==> r == Some("#FFFFFF")
    ensures p == Dark ==> r == Some("#000000")
  {
    match p
    case Light => Some("#FFFFFF")
    case Dark => Some("#000000")
    case System => None
  }

  /** Theme save: write, then update the state, then the system background; a failed write stops at the first step. */
  function SaveTheme(s: ThemeState, store: Store, p: ThemePreference, writeOk: bool): (r: (ThemeState, Store, Option<string>))
    ensures writeOk ==> r.0.preference == p.Name() && r.1 == store[ThemeKey := p.Name()]
    ensures writeOk ==> r.0 == s.(preference := p.Name())
    ensures writeOk ==> (r.2 == Some("#FFFFFF") <==> p == Light) && (r.2 == Some("#000000") <==> p == Dark)
    ensures writeOk ==> (r.2.None? <==> p == System)
    ensures !writeOk ==> r == (s, store, None)
  {
    var (t, st) := Persist(s, s.(preference := p.Name()), store, ThemeKey, p.Name(), writeOk);
    (t, st, if writeOk then SystemBackground(p) else None)
  }

  /** A saved theme is what the next launch loads. */
  lemma ThemeRoundTrip(s: ThemeState, store: Store, p: ThemePreference)
    ensures var (_, st, _) := SaveTheme(s, store, p, true);
            LoadTheme(ThemeInitial(), Get(st, ThemeKey)).preference == p.Name()
  {
  }

  // ---------------------------------------------------------------- notification level

  datatype NotificationPreference = All | Breaking | NoNotifications {
    function Name(): string {
      match this
      case All => "all"
      case Breaking => "breaking"
      case NoNotifications => "none"
    }
  }

  datatype NotificationsState = NotificationsState(preference: NotificationPreference, isLoading: bool)

  function NotificationsInitial(): NotificationsState {
    NotificationsState(All, true)
  }

  /** The level a stored string names, if it is one of "all", "breaking", "none". */
  function ParseNotificationPreference(v: string): (r: Option<NotificationPreference>)
    ensures r.Some? ==> r.value.Name() == v
    ensures r.None? ==> forall p: NotificationPreference :: p.Name() != v
  {
    if v == "all" then Some(All)
    else if v == "breaking" then Some(Breaking)
    else if v == "none" then Some(NoNotifications)
    else None
  }

  /** Load accepts only the three names; anything else keeps the current level. */
  function LoadNotifications(s: NotificationsState, read: ReadResult): (t: NotificationsState)
    ensures !t.isLoading
    ensures read.Value? && read.saved.Some? && ParseNotificationPreference(read.saved.value).Some? ==>
              t.preference.Name() == read.saved.value
    ensures !(read.Value? && read.saved.Some? && ParseNotificationPreference(read.saved.value).Some?) ==>
              t.preference == s.preference
  {
    if read.Value? && read.saved.Some? && ParseNotificationPreference(read.saved.value).Some? then
      NotificationsState(ParseNotificationPreference(read.saved.value).value, false)
    else s.(isLoading := false)
  }

  function SaveNotifications(s: NotificationsState, store: Store, p: NotificationPreference, writeOk: bool): (r: (NotificationsState, Store))
    ensures writeOk ==> r.0.preference == p && r.1 == store[NotificationsKey := p.Name()]
    ensures writeOk ==> r.0 == s.(preference := p)
    ensures !writeOk ==> r == (s, store)
  {
    Persist(s, s.(preference := p), store, NotificationsKey, p.Name(), writeOk)
  }

  lemma NotificationsRoundTrip(s: NotificationsState, store: Store, p: NotificationPreference)
    ensures LoadNotifications(NotificationsInitial(), Get(SaveNotifications(s, store, p, true).1, NotificationsKey)).preference == p
  {
  }

  // ---------------------------------------------------------------- notifications enabled

  datatype EnabledState = EnabledState(enabled: bool, isLoading: bool)

  function EnabledInitial(): EnabledState {
    EnabledState(false, true)
  }

  /** `enabled.toString()`. */
  function BoolToString(b: bool): string {
    if b then "true" else "false"
  }

  /** Load: any stored string sets the flag to `saved === 'true'`; nothing stored keeps it. */
  function LoadEnabled(s: EnabledState, read: ReadResult): (t: EnabledState)
    ensures !t.isLoading
    ensures read.Value? && read.saved.Some? ==> (t.enabled <==> read.saved.value == "true")
    ensures !(read.Value? && read.saved.Some?) ==> t.enabled == s.enabled
  {
    if read.Value? && read.saved.Some? then EnabledState(read.saved.value == "true", false)
    else s.(isLoading := false)
  }

  function SaveEnabled(s: EnabledState, store: Store, enabled: bool, writeOk: bool): (r: (EnabledState, Store))
    ensures writeOk ==> r.0.enabled == enabled && r.1 == store[NotificationsEnabledKey := BoolToString(enabled)]
    ensures writeOk ==> r.0 == s.(enabled := enabled)
    ensures !writeOk ==> r == (s, store)
  {
    Persist(s, s.(enabled := enabled), store, NotificationsEnabledKey, BoolToString(enabled), writeOk)
  }

  /** The flag survives a save and a load, from any state; with nothing stored it is off. */
  lemma EnabledRoundTrip(s: EnabledState, t: EnabledState, store: Store, enabled: bool)
    ensures LoadEnabled(t, Get(SaveEnabled(s, store, enabled, true).1, NotificationsEnabledKey)).enabled == enabled
    ensures NotificationsEnabledKey !in store ==> !LoadEnabled(EnabledInitial(), Get(store, NotificationsEnabledKey)).enabled
  {
  }

  // ---------------------------------------------------------------- home category

  datatype CategoryState = CategoryState(category: string, isLoading: bool)

  function CategoryInitial(): CategoryState {
    CategoryState("Top News", true)
  }

  /** Load adopts any non-empty stored string. */
  function LoadCategory(s: CategoryState, read: ReadResult): (t: CategoryState)
    ensures !t.isLoading
    ensures TruthyRead(read) ==> t.category == read.saved.value
    ensures !TruthyRead(read) ==> t.category == s.category
  {
    if TruthyRead(read) then CategoryState(read.saved.value, false) else s.(isLoading := false)
  }

  function SaveCategory(s: CategoryState, store: Store, category: string, writeOk: bool): (r: (CategoryState, Store))
    ensures writeOk ==> r.0.category == category && r.1 == store[CategoryKey := category]
    ensures writeOk ==> r.0 == s.(category := category)
    ensures !writeOk ==> r == (s, store)
  {
    Persist(s, s.(category := category), store, CategoryKey, category, writeOk)
  }

  /** A saved category comes back on the next launch, except the empty one, which loads as "Top News". */
  lemma CategoryRoundTrip(s: CategoryState, store: Store, category: string)
    ensures var loaded := LoadCategory(CategoryInitial(), Get(SaveCategory(s, store, category, true).1, CategoryKey));
            loaded.category == if category == "" then "Top News" else category
  {
  }

  // ---------------------------------------------------------------- notification categories

  /** The notification categories offered in settings. */
  datatype NotificationCategory = TopNews | Politics | Music | Sport | Comedy {
    function Name(): string {
      match this
      case TopNews => "Top News"
      case Politics => "Politics"
      case Music => "Music"
      case Sport => "Sport"
      case Comedy => "Comedy"
    }
  }

  /** A JSON value (numbers restricted to integers). */
  datatype JsonValue =
    | JsonString(text: string)
    | JsonNumber(number: int)
    | JsonBool(truth: bool)
    | JsonNull
    | JsonArray(elements: seq<JsonValue>)
    | JsonObject(members: seq<(string, JsonValue)>)

  /** What `JSON.parse` makes of the stored text: a value, or a thrown error. */
  datatype Parsed = Parsed(value: JsonValue) | ParseError

  /**
   * The list in state holds whatever array was stored: `Array.isArray` is the
   * only check, so its elements need not be category names.
   */
  datatype CategoriesState = CategoriesState(categories: seq<JsonValue>, isLoading: bool)

  function CategoriesInitial(): CategoriesState {
    CategoriesState([], true)
  }

  /** The stored text parses to an array. */
  predicate IsArray(p: Parsed) {
    p.Parsed? && p.value.JsonArray?
  }

  /** Load: a non-empty stored string that parses to an array replaces the list; anything else is ignored. */
  function LoadCategories(s: CategoriesState, read: ReadResult, parse: string -> Parsed): (t: CategoriesState)
    ensures !t.isLoading
    ensures TruthyRead(read) && IsArray(parse(read.saved.value)) ==>
              t.categories == parse(read.saved.value).value.elements
    ensures !(TruthyRead(read) && IsArray(parse(read.saved.value))) ==> t.categories == s.categories
  {
    if TruthyRead(read) && IsArray(parse(read.saved.value)) then
      CategoriesState(parse(read.saved.value).value.elements, false)
    else s.(isLoading := false)
  }

  /** A stored array of anything is adopted as it is, `[1, {}]` included. */
  lemma UnvalidatedCategoriesAreAdopted(s: CategoriesState, text: string, parse: string -> Parsed)
    requires text != "" && parse(text) == Parsed(JsonArray([JsonNumber(1), JsonObject([])]))
    ensures LoadCategories(s, Value(Some(text)), parse).categories == [JsonNumber(1), JsonObject([])]
  {
  }

  /** The JSON array a list of categories is written as: their names, as strings. */
  function CategoriesJson(categories: seq<NotificationCategory>): (v: JsonValue)
    ensures v.JsonArray? && |v.elements| == |categories|
    ensures forall k :: 0 <= k < |categories| ==> v.elements[k] == JsonString(categories[k].Name())
  {
    JsonArray(seq(|categories|, k requires 0 <= k < |categories| => JsonString(categories[k].Name())))
  }

  /** Save writes `JSON.stringify(categories)`, with `stringify` standing for `JSON.stringify`. */
  function SaveCategories(s: CategoriesState, store: Store, categories: seq<NotificationCategory>,
                          stringify: JsonValue -> string, writeOk: bool): (r: (CategoriesState, Store))
    ensures writeOk ==> r.0.categories == CategoriesJson(categories).elements
    ensures writeOk ==> r.0 == s.(categories := CategoriesJson(categories).elements)
    ensures writeOk ==> r.1 == store[NotificationCategoriesKey := stringify(CategoriesJson(categories))]
    ensures !writeOk ==> r == (s, store)
  {
    var v := CategoriesJson(categories);
    Persist(s, s.(categories := v.elements), store, NotificationCategoriesKey, stringify(v), writeOk)
  }

  /** With a JSON codec that reads back what it writes, the saved list is what loads. */
  lemma CategoriesRoundTrip(s: CategoriesState, store: Store, categories: seq<NotificationCategory>,
                            stringify: JsonValue -> string, parse: string -> Parsed)
    requires stringify(CategoriesJson(categories)) != ""
    requires parse(stringify(CategoriesJson(categories))) == Parsed(CategoriesJson(categories))
    ensures var st := SaveCategories(s, store, categories, stringify, true).1;
            var loaded := LoadCategories(CategoriesInitial(), Get(st, NotificationCategoriesKey), parse);
            |loaded.categories| == |categories| &&
            forall k :: 0 <= k < |categories| ==> loaded.categories[k] == JsonString(categories[k].Name())
  {
  }
}

=== FILE: query.dfy ===
/**
 * Request URLs as the screens build them: a base path followed by an ordered
 * list of `key=value` query parameters. The properties of a request are
 * stated on the parameter list through `Lookup`.
 */
module Query {
  import opened Optional

  type Params = seq<(string, string)>

  /** The value of the first parameter named `key`, if any. */
  function Lookup(ps: Params, key: string): (r: Option<string>)
    ensures r.None? <==> forall k :: 0 <= k < |ps| ==> ps[k].0 != key
    ensures r.Some? ==> (key, r.value) in ps
  {
    if ps == [] then None
    else if ps[0].0 == key then Some(ps[0].1)
    else Lookup(ps[1..], key)
  }

  /** Looking up in a concatenation looks in the first part, then in the second. */
  lemma {:induction false} LookupAppend(a: Params, b: Params, key: string)
    ensures Lookup(a + b, key) == if Lookup(a, key).Some? then Lookup(a, key) else Lookup(b, key)
  {
    if a == [] {
      assert a + b == b;
    } else {
      var ab := a + b;
      assert ab[0] == a[0];
      if a[0].0 != key {
        assert ab[1..] == a[1..] + b;
        LookupAppend(a[1..], b, key);
      }
    }
  }

  function RenderPairs(ps: Params): string {
    if ps == [] then ""
    else if |ps| == 1 then ps[0].0 + "=" + ps[0].1
    else ps[0].0 + "=" + ps[0].1 + "&" + RenderPairs(ps[1..])
  }

  /** One more pair at the end of a non-empty list adds `&k=v` after the rest. */
  lemma {:induction false} RenderPairsSnoc(ps: Params, k: string, v: string)
    requires ps != []
    ensures RenderPairs(ps + [(k, v)]) == RenderPairs(ps) + "&" + k + "=" + v
  {
    var qs := ps + [(k, v)];
    var kv := k + "=" + v;
    assert qs[0] == ps[0];
    var h := ps[0].0 + "=" + ps[0].1 + "&";
    if |ps| == 1 {
      assert qs[1..] == [(k, v)];
      assert RenderPairs(qs) == h + kv;
      assert h + kv == RenderPairs(ps) + "&" + kv;
    } else {
      var rest := RenderPairs(ps[1..]);
      assert qs[1..] == ps[1..] + [(k, v)];
      RenderPairsSnoc(ps[1..], k, v);
      assert RenderPairs(qs) == h + (rest + "&" + kv);
      assert RenderPairs(ps) == h + rest;
      assert h + (rest + "&" + kv) == (h + rest) + "&" + kv;
    }
    assert RenderPairs(ps) + "&" + kv == RenderPairs(ps) + "&" + k + "=" + v;
  }

  /** Adding a parameter at the end appends `&k=v` to the URL. */
  lemma UrlSnoc(base: string, ps: Params, k: string, v: string)
    requires ps != []
    ensures Request(base, ps + [(k, v)]).Url() == Request(base, ps).Url() + "&" + k + "=" + v
  {
    RenderPairsSnoc(ps, k, v);
    var r := RenderPairs(ps);
    assert base + "?" + (r + "&" + k + "=" + v) == base + "?" + r + "&" + k + "=" + v;
  }

  /** A request target: a base path and its query parameters. */
  datatype Request = Request(base: string, params: Params) {
    /** `base?k1=v1&k2=v2...`, the string handed to `fetch` or `openURL`. */
    function Url(): string {
      base + "?" + RenderPairs(params)
    }
  }

  /** The URL of a request with one parameter. */
  lemma UrlOfOne(base: string, k: string, v: string)
    ensures Request(base, [(k, v)]).Url() == base + "?" + k + "=" + v
  {
  }

  /** The URL of a request with two parameters, joined by '&'. */
  lemma UrlOfTwo(base: string, k1: string, v1: string, k2: string, v2: string)
    ensures Request(base, [(k1, v1), (k2, v2)]).Url() == base + "?" + k1 + "=" + v1 + "&" + k2 + "=" + v2
  {
    var ps := [(k1, v1), (k2, v2)];
    assert ps[1..] == [(k2, v2)];
    assert RenderPairs(ps) == k1 + "=" + v1 + "&" + (k2 + "=" + v2);
    var head := base + "?" + k1 + "=" + v1 + "&";
    assert base + "?" + (k1 + "=" + v1 + "&" + (k2 + "=" + v2)) == head + (k2 + "=" + v2);
    assert head + (k2 + "=" + v2) == head + k2 + "=" + v2;
  }
}

=== FILE: time_ago.dfy ===
/**
 * `getTimeAgo`: the age of a post, from the millisecond difference between
 * the clock and the publication date, as "<n> min(s) ago", "<n> hr(s) ago"
 * or "<n> day(s) ago". The post card and the detail screen carry the same
 * definition; it is stated once here and used by both.
 */
module TimeAgo {
  import opened Optional
  import opened JsText

  const MsPerMinute: int := 1000 * 60
  const MsPerHour: int := 1000 * 60 * 60
  const MsPerDay: int := MsPerHour * 24

  datatype Unit = Minute | Hour | Day {
    function Word(): string {
      match this
      case Minute => "min"
      case Hour => "hr"
      case Day => "day"
    }
  }

  /** A count of whole units, before it is printed. */
  datatype Age = Age(count: int, unit: Unit)

  /**
   * The bucket a difference `d` falls in. `Math.floor` of a quotient by a
   * positive constant is Dafny's `/`, also for negative `d` (a date in the
   * future lands in the minute bucket with a negative count).
   */
  function Bucket(d: int): (a: Age)
    ensures a.unit == Minute <==> d < MsPerHour
    ensures a.unit == Hour <==> MsPerHour <= d < MsPerDay
    ensures a.unit == Day <==> MsPerDay <= d
  {
    var hours := d / MsPerHour;
    if hours < 1 then Age(d / MsPerMinute, Minute)
    else if hours < 24 then Age(hours, Hour)
    else Age(hours / 24, Day)
  }

  /** The count is the number of whole units elapsed, and fits its bucket. */
  lemma BucketCount(d: int)
    ensures var a := Bucket(d);
            match a.unit
            case Minute => a.count * MsPerMinute <= d < (a.count + 1) * MsPerMinute && a.count < 60
            case Hour => a.count * MsPerHour <= d < (a.count + 1) * MsPerHour && 1 <= a.count < 24
            case Day => a.count * MsPerDay <= d < (a.count + 1) * MsPerDay && 1 <= a.count
  {
    var h := d / MsPerHour;
    var a := Bucket(d);
    assert h * MsPerHour <= d < (h + 1) * MsPerHour;
    if a.unit == Day {
      var q := h / 24;
      assert q * 24 <= h < (q + 1) * 24;
      assert q * MsPerDay == (q * 24) * MsPerHour;
      assert (q + 1) * MsPerDay == ((q + 1) * 24) * MsPerHour;
      assert a.count == q;
    }
  }

  /** `${n} unit${n !== 1 ? 's' : ''} ago`. */
  function Label(a: Age): (r: string)
    ensures |r| >= 5
    ensures r[|r| - 5..] == "s ago" <==> a.count != 1
    ensures r == IntToString(a.count) + (" " + a.unit.Word() + (if a.count != 1 then "s ago" else " ago"))
  {
    var w := a.unit.Word();
    var tail := if a.count != 1 then "s ago" else " ago";
    var rest := " " + w + tail;
    var r := IntToString(a.count) + rest;
    assert r[|r| - 5..] == "s ago" <==> a.count != 1 by {
      assert r[|r| - 5..] == rest[|rest| - 5..];
      if a.count != 1 {
        assert rest[|rest| - 5..] == tail;
      } else {
        assert rest[|rest| - 5] == w[|w| - 1] != 's';
      }
    }
    r
  }

  /**
   * `getTimeAgo(date)` given the difference between the clock and the parsed
   * date; `None` is NaN (an unparsable date), which fails both comparisons
   * and so prints as days.
   */
  function TimeAgoText(diff: Option<int>): (r: string)
    ensures diff.None? ==> r == "NaN days ago"
    ensures diff.Some? ==>
              var a := Bucket(diff.value);
              r == IntToString(a.count) + (" " + a.unit.Word() + (if a.count != 1 then "s ago" else " ago"))
    ensures diff.Some? ==> ParseInt(r) == Some(Bucket(diff.value).count)
    ensures diff.Some? ==> |r| >= 5 && (r[|r| - 5..] == "s ago" <==> Bucket(diff.value).count != 1)
  {
    match diff
    case None => "NaN days ago"
    case Some(d) =>
      LabelCountRoundTrip(Bucket(d));
      Label(Bucket(d))
  }

  /** Reading the label back with `parseInt` gives the count it prints. */
  lemma LabelCountRoundTrip(a: Age)
    ensures ParseInt(Label(a)) == Some(a.count)
  {
    var head := IntToString(a.count) + " " + a.unit.Word();
    var tail := if a.count != 1 then "s ago" else " ago";
    var rest := " " + a.unit.Word() + tail;
    assert Label(a) == IntToString(a.count) + rest;
    ParseIntOfIntNumeralThen(a.count, rest);
  }

  lemma TimeAgoTextOfDifference(d: int)
    ensures TimeAgoText(Some(d)) == Label(Bucket(d))
  {
  }

  /** The printed label of a small count of `unit`s. */
  lemma LabelOfDigit(n: nat, unit: Unit)
    requires n < 10
    ensures Label(Age(n, unit)) == [DigitChar(n)] + " " + unit.Word() + (if n != 1 then "s ago" else " ago")
  {
    assert IntToString(n) == [DigitChar(n)];
  }

  lemma BucketOfSmallDifference(d: int, n: nat, unit: Unit)
    requires unit == Minute ==> n * MsPerMinute <= d < (n + 1) * MsPerMinute && d < MsPerHour
    requires unit == Hour ==> n * MsPerHour <= d < (n + 1) * MsPerHour && 1 <= n < 24
    requires unit == Day ==> n * MsPerDay <= d < (n + 1) * MsPerDay && 1 <= n
    ensures Bucket(d) == Age(n, unit)
  {
    BucketCount(d);
  }

  /** Under a minute pluralises the zero: "0 mins ago". */
  lemma ZeroMinutesExample(d: int)
    requires 0 <= d < MsPerMinute
    ensures TimeAgoText(Some(d)) == "0 mins ago"
  {
    assert Label(Age(0, Minute)) == "0 mins ago" by {
      LabelOfDigit(0, Minute);
    }
    BucketOfSmallDifference(d, 0, Minute);
    TimeAgoTextOfDifference(d);
  }

  /** From one minute up to two: "1 min ago", without the plural. */
  lemma OneMinuteExample(d: int)
    requires MsPerMinute <= d < 2 * MsPerMinute
    ensures TimeAgoText(Some(d)) == "1 min ago"
  {
    assert Label(Age(1, Minute)) == "1 min ago" by {
      LabelOfDigit(1, Minute);
    }
    BucketOfSmallDifference(d, 1, Minute);
    TimeAgoTextOfDifference(d);
  }

  /** From one hour up to two: "1 hr ago". */
  lemma OneHourExample(d: int)
    requires MsPerHour <= d < 2 * MsPerHour
    ensures TimeAgoText(Some(d)) == "1 hr ago"
  {
    assert Label(Age(1, Hour)) == "1 hr ago" by {
      LabelOfDigit(1, Hour);
    }
    BucketOfSmallDifference(d, 1, Hour);
    TimeAgoTextOfDifference(d);
  }

  /** From one day up to two: "1 day ago". */
  lemma OneDayExample(d: int)
    requires MsPerDay <= d < 2 * MsPerDay
    ensures TimeAgoText(Some(d)) == "1 day ago"
  {
    assert Label(Age(1, Day)) == "1 day ago" by {
      LabelOfDigit(1, Day);
    }
    BucketOfSmallDifference(d, 1, Day);
    TimeAgoTextOfDifference(d);
  }
}
